=== FILE: README.md ===
# Image-analysis gateway: a Dafny model of `api/analyze.js`

The serverless function `api/analyze.js` of video-analyzer accepts one
"analyze this image" request and forwards it to one of two vision-language
model providers — Qwen (Alibaba DashScope, either its own API or an
OpenAI-compatible endpoint the caller names) or VolcEngine (ByteDance Ark) —
and answers with `{success: true, content}` or `{success: false, error}`.

This project models that function as pure Dafny functions. The network call
becomes an input: the handler is `Handler.Handle(httpMethod, body, reply)`,
where `reply` is what the upstream call would have produced. The result is an
`Outcome` holding the HTTP response and the upstream request that was sent,
if any, so "no request was built" is a provable statement.

Module layout, following the program's structure:

- `Wrappers` (wrappers.dfy): `Option` and `Result`.
- `JsValue` (js_value.dfy): the JSON datatype and the JavaScript semantics the
  decisions depend on. This covers truthiness, property access that throws on
  `null`/`undefined`, optional chaining and `[0]`.
- `JsText` (js_text.dfy): JavaScript's ToString (used by template literals and
  `new Error(x)`), integer printing, and `String.prototype.trim`.
- `Wire` (wire.dfy): the upstream request and reply, the prompt and body parts
  both providers share, and the `choices[0].message.content` guard.
- `ErrorPolicy` (error_policy.dfy): the error-body fallback, and the error
  policy as an ordered decision table.
- `Qwen` (qwen.dfy) and `VolcEngine` (volcengine.dfy): the two adapters.
- `Handler` (handler.dfy): the entry point.
- `AdapterProperties` and `HandlerProperties`: lemmas relating the pieces.

JavaScript values are `Json` (`JNull`, `JBool`, `JNum` for integral numbers,
`JFrac` for fractional numbers carried by their printed text, `JStr`, `JArr`,
`JObj`). `undefined` is `None`. An error the engine raises by itself is a
`Fault.Engine(TypeError | SyntaxError)`. Examples: reading a member of `null`,
calling `trim` on a non-string, converting an object with its own `toString`
member to a string, or `response.json()` on text that is not JSON. An error the
program throws is `Fault.Raised(message)`.

Three behaviours of the code are worth stating, because a reader of the
function might expect otherwise:

- Qwen's error chain (api/analyze.js:148) reads `errorData.error?.message`
  second. So `{"error":{"message":"boom"}}` throws "boom" for Qwen as well as
  for VolcEngine, and the status literal is only the last resort. See
  `AdapterProperties.BoomExample`.
- DashScope's part search (api/analyze.js:161) takes the first part whose
  `text` is truthy, not merely present. A `null` part before it throws a
  TypeError.
- When no part is `null` and none has a truthy `text` (api/analyze.js:161),
  `无法获取分析结果` is returned as successful content, so the response is 200 with that text.

## Model

| member | source | states |
|---|---|---|
| Handler.Handle | api/analyze.js:4-58 | Every response carries the CORS headers. The status is one of 200/400/405/500. OPTIONS alone gets no body and status 200. 405 exactly for methods other than OPTIONS and POST, with `{error:'Method not allowed'}`. Only a POST can send upstream. A 400/500 body has `success:false`; a non-OPTIONS 200 body has `success:true`. |
| Handler.Dispatch | api/analyze.js:25-47 | A `null`/absent body throws: 500 with nothing sent. A body without all three required fields truthy gets the fixed 400 and nothing is sent. A request is sent only for a validated body whose provider is exactly "qwen" or "volcengine". |
| Handler.Finish | api/analyze.js:49-56 | Status 200 exactly when the adapter returned. Its body is then `{success:true, content}`. A throw maps to the 500 of `Failed`. The sent request is passed through. |
| Handler.Failed | api/analyze.js:51-56 | Status 500 with `success:false`. The error text is `error.message`, or `服务器内部错误` when that is empty. |
| Handler.SuccessBody | api/analyze.js:49 | `success` is `true`. `content` is present exactly when the adapter returned something other than `undefined`, and is then that value. No other member exists. |
| Handler.EngineMessage | api/analyze.js:55 | The message of an engine-raised error is never empty, so the `||` fallback never applies to it. |
| HandlerProperties.MethodGate | api/analyze.js:15-23 | For any method but POST, the outcome ignores body and reply. OPTIONS gives 200 with no body; every other method gives 405 `{error:'Method not allowed'}`; nothing is sent. |
| HandlerProperties.MissingFieldRejected | api/analyze.js:28-33 | A POST body lacking a truthy `provider`, `imageDataUrl` or `apiKey` gets 400 with `缺少必要参数：provider, imageDataUrl, apiKey`, and nothing is sent. |
| HandlerProperties.EachFieldRequired | api/analyze.js:28 | Each of the three fields alone fails validation when it is absent, `""`, `null`, `false` or `0`. |
| HandlerProperties.OptionalFieldsIrrelevantToValidation | api/analyze.js:26-28 | With the three required fields truthy, the validation rejection never occurs, with or without `model` and `baseUrl`. |
| HandlerProperties.PassesValidation | api/analyze.js:28-47 | A body with the three required fields never receives the validation rejection, even when its provider is unsupported. |
| HandlerProperties.NullBodyIsServerError | api/analyze.js:26 | Destructuring a `null` or absent body throws. The result is 500 and no request. |
| HandlerProperties.UnsupportedProvider | api/analyze.js:42-46 | A validated body whose provider is neither "qwen" nor "volcengine" gets 400 `不支持的AI平台: <provider as text>`, and no adapter runs. |
| HandlerProperties.FooProvider | api/analyze.js:43-46 | Provider "foo" gets 400 `{success:false, error:'不支持的AI平台: foo'}`. |
| HandlerProperties.DispatchToQwen | api/analyze.js:38-39 | Exactly the string "qwen" reaches the Qwen adapter. Its arguments are the body's `imageDataUrl`, `apiKey`, `model` and `baseUrl`. |
| HandlerProperties.DispatchToVolcEngine | api/analyze.js:40-41 | Exactly the string "volcengine" reaches the VolcEngine adapter, with the same four arguments. |
| HandlerProperties.SentExactlyWhen | api/analyze.js:15-47 | A request is sent if and only if four things hold: the method is POST; the body is non-null and validated; the provider is supported; and that provider's adapter can build its request. |
| HandlerProperties.ReplyIrrelevantUnlessSent | api/analyze.js:15-47 | When nothing is sent, the outcome is the same for every upstream reply. |
| HandlerProperties.BadRequestExactlyWhen | api/analyze.js:28-46 | Status 400 if and only if a POST body is non-null and either fails validation or names an unsupported provider that can be printed. |
| HandlerProperties.TransportFailureIsServerError | api/analyze.js:134-138 | When the call itself fails, the response is 500 carrying the transport's message, or the generic text when that message is empty. |
| HandlerProperties.NonOkReplyIsServerError | api/analyze.js:140-149 | For either provider, a non-ok upstream reply ends in 500 with `success:false`. |
| HandlerProperties.NonOkReplyCarriesPolicyMessage | api/analyze.js:140-149 | Once a request is sent, a non-ok reply gives 500 whose error is the message the provider's error table picks. That is `[message, error?.message]` for Qwen and `[error?.message]` for VolcEngine, each with its status literal as fallback. When that message is empty, the generic text is used. |
| HandlerProperties.ChatReplyBecomesSuccess | api/analyze.js:38-49 | For VolcEngine and compatible Qwen, an ok reply whose `choices[0]` is truthy gives 200 `{success:true, content}` with `choices[0].message.content`. |
| HandlerProperties.OfficialReplyBecomesResponse | api/analyze.js:49-56 | For DashScope's API, an ok reply gives 200 with what the extraction returns, or the 500 of what it throws. |
| HandlerProperties.EmptyErrorMessageFallsBack | api/analyze.js:148 | A Qwen error body `{"message": []}` throws an Error with empty text. The response therefore carries `服务器内部错误`. |
| Qwen.SelectVariant | api/analyze.js:62 | The compatible variant is chosen if and only if `baseUrl` is a string with a non-white-space character. A truthy non-string throws a TypeError; everything else selects DashScope's own API. |
| Qwen.Build | api/analyze.js:61-121 | Building fails (TypeError) exactly when variant selection throws or the API key cannot be printed. The headers are the Bearer/JSON pair. The compatible URL is `baseUrl` verbatim and the body is the compatible chat body. The native URL is the fixed DashScope URL and the body is the native body. Both hold for every printable key. |
| Qwen.ErrorFault | api/analyze.js:140-149 | Unparseable text becomes the message itself, and the status literal when the text is empty. A body of `null` throws a TypeError. |
| Qwen.FindText | api/analyze.js:161 | The result is the `text` of the first element with a truthy `text`. It is `undefined` if and only if no element is `null` and none has a truthy `text`. It throws if and only if a `null` element comes before any truthy `text`. |
| Qwen.FromContent | api/analyze.js:159-164 | String content is returned unchanged. A shape that is neither a list nor a string is the format error. Whatever a list yields is truthy, because an empty find falls back to `无法获取分析结果`. |
| Qwen.ExtractOfficial | api/analyze.js:157-168 | A `null` reply throws. Any other reply with a missing or falsy `output` is the format error, arrays, strings, numbers and booleans included, and so is a failed `output.choices && output.choices[0]` guard. When the guard holds, the result is the shape sniff applied to `output.choices[0].message.content`, and a throw while reading it passes through. A result is truthy or the empty string. |
| Qwen.Conclude | api/analyze.js:134-168 | A transport failure surfaces its message. A non-ok reply throws the Qwen error policy's error. An ok reply that is not JSON throws a SyntaxError. An ok JSON reply goes through `ExtractOfficial` for DashScope's API and through `ChatContent` with `千问API返回格式错误` for the compatible variant. |
| Qwen.Analyze | api/analyze.js:61-169 | A request is sent if and only if it can be built, and the sent request is the built one. Nothing sent means a TypeError. Once sent, the result is what the chosen variant concludes from the reply. A non-ok reply never yields success. |
| VolcEngine.Build | api/analyze.js:172-210 | The URL always ends in `/chat/completions`. It is the default endpoint's for `undefined`, `<s>/chat/completions` for a string `s` (also `""`), and `null/chat/completions` for `null`. It fails exactly when the base URL or key cannot be printed. The body is the single-user-turn chat body. |
| VolcEngine.ErrorFault | api/analyze.js:212-221 | Unparseable text always gives `火山引擎API错误: <status>`, because the raw text is never consulted. A `null` body throws a TypeError. |
| Wire.ChatContent | api/analyze.js:223-229 | The chat-completions extraction both adapters share. A `null` reply throws. A failed `choices && choices[0]` guard is the adapter's own format error, and that is the only error the program raises here. When the guard holds, `choices[0].message.content` is returned as it is; a throw while reading it passes through. |
| VolcEngine.Conclude | api/analyze.js:184-229 | A transport failure surfaces its message. A non-ok reply throws the VolcEngine error policy's error. An ok reply that is not JSON throws a SyntaxError. An ok JSON reply goes through `ChatContent` with `火山引擎API返回格式错误`. |
| VolcEngine.Analyze | api/analyze.js:172-230 | A request is sent if and only if it can be built, and the sent request is the built one. Nothing sent means a TypeError. Once sent, the result is what `Conclude` makes of the reply. A non-ok reply never yields success. |
| VolcEngine.RequestBody | api/analyze.js:190-209 | The body has exactly `model`, `messages`, `max_tokens` and `temperature`. The model defaults to `doubao-vision-pro-32k` for `undefined` only. The messages are a single user turn, with no system message. |
| Wire.AuthHeaders | api/analyze.js:69-72 | The headers are exactly Authorization and Content-Type. Content-Type is `application/json` and Authorization is `Bearer ` followed by the key's JavaScript text, for a number as for a string. Building them fails if and only if the key cannot be printed. |
| Wire.Defaulted | api/analyze.js:172 | A parameter default replaces `undefined` and nothing else. |
| Wire.FirstChoiceContent | api/analyze.js:154-155 | A `null` value throws. The guard fails if and only if `choices` is falsy or `choices[0]` is falsy. When it holds, the result is `choices[0].message.content`, and `message` is not `null`. |
| ErrorPolicy.ErrorData | api/analyze.js:141-147 | The error body is the parsed JSON, or `{message: rawText}` when parsing fails. |
| ErrorPolicy.NewError | api/analyze.js:148 | `new Error(x)` keeps a string `x` as its message. It throws if and only if `x` cannot be converted to a string. |
| ErrorPolicy.FirstMatch | api/analyze.js:148 | The reference decision table. The first rule whose lookup is truthy wins; otherwise the fallback applies. A `null`/absent body throws at the first access. |
| AdapterProperties.QwenErrorFollowsTable | api/analyze.js:148 | Qwen's error is the table `[message, error?.message]` with the status literal last, for every reply. |
| AdapterProperties.VolcEngineErrorFollowsTable | api/analyze.js:220 | VolcEngine's error is the table `[error?.message]` with the status literal last, for every reply. |
| AdapterProperties.QwenTopMessageWins | api/analyze.js:148 | For Qwen a non-empty top-level `message` beats `error.message`. |
| AdapterProperties.QwenNestedMessageSecond | api/analyze.js:148 | For Qwen `error.message` is used when the top-level `message` is falsy. |
| AdapterProperties.VolcEngineIgnoresTopMessage | api/analyze.js:220 | VolcEngine's error does not depend on a top-level `message` or on the raw text. |
| AdapterProperties.BoomExample | api/analyze.js:148 | `{"error":{"message":"boom"}}` yields "boom" for both providers. |
| AdapterProperties.UnparseableBody | api/analyze.js:143-148 | For a body that is not JSON, Qwen throws the raw text, or the status literal when the text is empty. VolcEngine always throws its status literal. |
| AdapterProperties.VariantSelectionTable | api/analyze.js:62 | `undefined`, `null`, `""` and white space select DashScope's API. A truthy number throws a TypeError. |
| AdapterProperties.CompatibleIffNotBlank | api/analyze.js:62 | A string selects the compatible variant if and only if one of its characters is not white space. |
| AdapterProperties.OfficialRequest | api/analyze.js:97-103 | The native request goes to the fixed DashScope URL, with the Bearer/JSON headers and the native body. |
| Qwen.OfficialBody | api/analyze.js:104-120 | The native body has exactly `model`, `input` and `parameters`. The model defaults to `qwen-vl-max` for `undefined` only. The first message's content is `[{image}, {text: prompt}]` and `parameters.max_tokens` is 2000. |
| Qwen.CompatibleBody | api/analyze.js:73-96 | The compatible body has exactly `model`, `messages`, `max_tokens` and `temperature`. The model defaults to `qwen-vl-max`. The first message is the system persona and the second is the user turn. |
| AdapterProperties.OfficialBodyShape | api/analyze.js:104-120 | The native body holds the model (default `qwen-vl-max`) and one user message with content `[{image}, {text: prompt}]`. `parameters.max_tokens` is 2000 and there is no top-level `messages`. |
| AdapterProperties.CompatibleRequest | api/analyze.js:66-96 | The compatible URL is `baseUrl` verbatim. The headers are the Bearer/JSON pair and the body is the compatible chat body. |
| AdapterProperties.CompatibleBodyShape | api/analyze.js:73-96 | The compatible body holds the model (default `qwen-vl-max`) and messages `[system persona, user turn]`. It has max_tokens 2000 and temperature 0.7. |
| AdapterProperties.UserTurnShape | api/analyze.js:80-92 | The user turn has role user and content `[{type:image_url, image_url:{url}}, {type:text, text: prompt}]`. |
| AdapterProperties.VolcEngineRequestShape | api/analyze.js:184-209 | This is the VolcEngine wire request. The URL is `<baseUrl>/chat/completions` with the Bearer header. The model defaults to `doubao-vision-pro-32k`. Messages are a single user turn; max_tokens is 2000 and temperature 0.7. |
| AdapterProperties.VolcEngineBaseUrlDefault | api/analyze.js:172-184 | The default endpoint applies for `undefined` only. `""` yields `/chat/completions` and `null` yields `null/chat/completions`. |
| AdapterProperties.OfficialPartsExtraction | api/analyze.js:160-161 | With list content, the result is the `text` of the first part whose `text` is truthy. With no such part and no `null`, it is `无法获取分析结果`. |
| AdapterProperties.OfficialReplyContent | api/analyze.js:158-168 | For every reply with a truthy `output`, a failed `output.choices[0]` guard is the format error. Otherwise the result is the shape sniff applied to `output.choices[0].message.content`, whatever else the reply holds. |
| AdapterProperties.CanonicalOfficialReply | api/analyze.js:158-159 | The reply `{output:{choices:[{message:{content}}]}}` reaches the shape sniff with `content`. |
| AdapterProperties.OfficialFirstTextExample | api/analyze.js:161 | `[{text:"A"},{other:1}]` and `[{other:1},{text:"A"}]` both yield "A". |
| AdapterProperties.OfficialShapeExamples | api/analyze.js:160-168 | String content comes back unchanged. An empty list yields `无法获取分析结果`. A number is the format error. |
| AdapterProperties.EmptyReplyIsFormatError | api/analyze.js:151-168 | An ok reply `{}` is `千问API返回格式错误` for both Qwen variants and `火山引擎API返回格式错误` for VolcEngine. |
| AdapterProperties.OfficialMissingChoiceIsFormatError | api/analyze.js:158-168 | For DashScope's API, `{output:{}}`, `{output:{choices:[]}}` and `{output:{choices:[null]}}` are each `千问API返回格式错误`. |
| AdapterProperties.ChatMissingChoiceIsFormatError | api/analyze.js:153-156 | An empty `choices` and a `null` first choice are each the format error, for compatible Qwen and for VolcEngine alike. |
| AdapterProperties.ChatContentReturnedAsIs | api/analyze.js:153-155 | For every ok reply whose `choices[0]` is truthy, the compatible Qwen variant and VolcEngine both return `choices[0].message.content` untouched, whatever else the reply holds. |
| AdapterProperties.CanonicalChatReply | api/analyze.js:225-226 | The reply `{choices:[{message:{content}}]}` yields `content` for both chat-completions extractions. |
| AdapterProperties.ChatContentMissing | api/analyze.js:225-226 | A first choice whose message lacks `content` yields `undefined`. A first choice without `message` throws a TypeError. |
| JsText.StringOf | api/analyze.js:45 | ToString keeps a string unchanged and prints integers in decimal. It throws a TypeError if and only if the value holds an object with its own `toString` member. |
| JsText.Trim | api/analyze.js:62 | `trim` returns an infix with only white space cut from both ends. The infix neither starts nor ends with white space. It is empty if and only if the string is all white space. |
| JsText.IntText | api/analyze.js:148 | The status printed in a literal starts with `-` if and only if it is negative. The digits that follow read back as its magnitude, with no leading zero, so 404 prints as `404`. |
| JsText.NatTextRoundTrip | api/analyze.js:148 | Reading the printed digits of a natural number gives back that number. |
| JsValue.Truthy | api/analyze.js:28 | ToBoolean: a value is falsy if and only if it is `undefined`, `null`, `false`, `0` or `""`. The same test is used at lines 62, 148, 154, 161 and 220. |
| JsValue.OptGet | api/analyze.js:220 | `v?.name` is `undefined` when `v` is `null` or `undefined`, and the own member otherwise; it never throws. |
| JsValue.Get | api/analyze.js:26 | A member read throws a TypeError if and only if the value is `null` or `undefined`. Otherwise it yields the object's own member. |
| JsValue.Index0 | api/analyze.js:154 | `[0]` throws on `null`/`undefined`. It gives the first array element, which exists if and only if the array is non-empty. On a string it is truthy if and only if the string is. |

## Left out

- The HTTP call is not modelled: the fetch/node-fetch selection and the dynamic import (api/analyze.js:123-132, 174-182). The upstream reply is an input.
- `JSON.parse` and `JSON.stringify` are not modelled. A reply carries both its raw text and its parse result, and the model does not relate the two. Wire bodies are `Json` values, not serialised text. Object member order is not represented because `JObj` is a map.
- The engine's wording of a TypeError or SyntaxError is not modelled. The model writes the error's name (`Handler.EngineMessage`); only its non-emptiness enters the properties.
- JsValue.Json: a `JFrac` is meant to hold a number with a fractional part, carried by the text JavaScript prints for it. The datatype does not enforce this, so `JFrac("0")` can be written and would count as truthy. The model itself builds only `JFrac("0.7")`, the temperature.
- Numbers are integers or `JFrac` values carried by their printed text. Integers print in plain decimal, which matches JavaScript only below 10^21 in magnitude. Floating-point arithmetic and precision loss are not modelled.
- A JavaScript string is a sequence of UTF-16 code units, but the model uses Dafny characters. Only the truthiness of a string's first unit is used, so this does not change any outcome.
- The analysis prompt text (api/analyze.js:233-269) is not reproduced. `Wire.PROMPT` is a fixed stand-in, and no property depends on its wording.
- `console.error` logging is not modelled.
- `res.json` setting Content-Type is not modelled.
- Member lookup finds only an object's own members. That is exact for every name the handler reads, none of which is an array index, `length`, or a prototype member.
- server.js is not part of this model (Express setup, static files, upload filter and legacy routes). api/qianwen-proxy.js is not part of this model either: it forwards requests without deciding anything.

=== FILE: adapter_properties.dfy ===
/**
 * Properties of the two adapters: their error policies agree with the
 * decision tables, which field wins, what each variant puts on the wire,
 * and what each extraction returns.
 */
module AdapterProperties {
  import opened Wrappers
  import opened JsValue
  import opened JsText
  import opened Wire
  import opened ErrorPolicy
  import Qwen
  import VolcEngine

  // ------------------------------------------------------- error policies

  /** Qwen's `||` chain is the table [message, error?.message] with the status literal last. */
  lemma QwenErrorFollowsTable(status: int, rawText: string, parsed: Option<Json>)
    ensures Qwen.ErrorFault(status, rawText, parsed)
         == Throw(FirstMatch(ErrorData(rawText, parsed), Qwen.ERROR_RULES, Qwen.STATUS_ERROR_PREFIX + IntText(status)))
  {
    var data := ErrorData(rawText, parsed);
    if !Nullish(data) {
      var top: Path := ["message"];
      var nested: Path := ["error", "message"];
      assert top[0] == "message" && top[1..] == [];
      assert nested[0] == "error" && nested[1..] == ["message"] && nested[1..][1..] == [];
      assert Lookup(data.value, top) == Member(data.value, "message");
      assert Lookup(data.value, nested) == OptGet(Member(data.value, "error"), "message");
      assert Qwen.ERROR_RULES[1..] == [["error", "message"]];
      assert Qwen.ERROR_RULES[1..][1..] == [];
    }
  }

  /** VolcEngine's `||` chain is the table [error?.message] with the status literal last. */
  lemma VolcEngineErrorFollowsTable(status: int, rawText: string, parsed: Option<Json>)
    ensures VolcEngine.ErrorFault(status, rawText, parsed)
         == Throw(FirstMatch(ErrorData(rawText, parsed), VolcEngine.ERROR_RULES, VolcEngine.STATUS_ERROR_PREFIX + IntText(status)))
  {
    var data := ErrorData(rawText, parsed);
    if !Nullish(data) {
      var path: Path := ["error", "message"];
      assert path[0] == "error" && path[1..] == ["message"] && path[1..][1..] == [];
      var e := Member(data.value, "error");
      assert Chain(OptGet(e, "message"), path[1..][1..]) == OptGet(e, "message");
      assert Chain(e, path[1..]) == Chain(OptGet(e, "message"), path[1..][1..]);
      assert Lookup(data.value, path) == OptGet(e, "message");
      assert VolcEngine.ERROR_RULES[1..] == [];
    }
  }

  /** An error body `{ message, error: { message } }` with the given members. */
  function ErrorBody(top: Value, nested: Value): Json {
    var inner := if nested.Some? then JObj(map["message" := nested.value]) else JObj(map[]);
    if top.Some? then JObj(map["message" := top.value, "error" := inner]) else JObj(map["error" := inner])
  }

  /** For Qwen a non-empty top-level `message` beats `error.message`. */
  lemma QwenTopMessageWins(status: int, rawText: string, top: string, nested: Value)
    requires top != ""
    ensures Qwen.ErrorFault(status, rawText, Some(ErrorBody(Some(JStr(top)), nested))) == Raised(top)
  {
  }

  /** For Qwen `error.message` is consulted when the top-level `message` is falsy. */
  lemma QwenNestedMessageSecond(status: int, rawText: string, top: Value, nested: string)
    requires !Truthy(top) && nested != ""
    ensures Qwen.ErrorFault(status, rawText, Some(ErrorBody(top, Some(JStr(nested))))) == Raised(nested)
  {
  }

  /** VolcEngine never reads a top-level `message`: changing it changes nothing. */
  lemma VolcEngineIgnoresTopMessage(status: int, rawText: string, rawText': string, top: Value, top': Value, nested: Value)
    ensures VolcEngine.ErrorFault(status, rawText, Some(ErrorBody(top, nested)))
         == VolcEngine.ErrorFault(status, rawText', Some(ErrorBody(top', nested)))
  {
  }

  /**
   * The body `{"error":{"message":"boom"}}` yields "boom" for both providers:
   * Qwen's chain reaches `error.message` once `message` is absent.
   */
  lemma BoomExample(status: int, rawText: string)
    ensures VolcEngine.ErrorFault(status, rawText, Some(ErrorBody(None, Some(JStr("boom"))))) == Raised("boom")
    ensures Qwen.ErrorFault(status, rawText, Some(ErrorBody(None, Some(JStr("boom"))))) == Raised("boom")
  {
  }

  /** A body that is not JSON: Qwen throws its text unless it is empty, VolcEngine throws the status literal. */
  lemma UnparseableBody(status: int, rawText: string)
    ensures Qwen.ErrorFault(status, rawText, None)
         == Raised(if rawText != "" then rawText else Qwen.STATUS_ERROR_PREFIX + IntText(status))
    ensures VolcEngine.ErrorFault(status, rawText, None) == Raised(VolcEngine.STATUS_ERROR_PREFIX + IntText(status))
  {
  }

  // ---------------------------------------------------- variant selection

  /** `undefined`, `null`, the empty string and white space select DashScope's API; a number throws. */
  lemma VariantSelectionTable()
    ensures Qwen.SelectVariant(None) == Ok(Qwen.Official)
    ensures Qwen.SelectVariant(Some(JNull)) == Ok(Qwen.Official)
    ensures Qwen.SelectVariant(Some(JStr(""))) == Ok(Qwen.Official)
    ensures Qwen.SelectVariant(Some(JStr(" \t\n"))) == Ok(Qwen.Official)
    ensures Qwen.SelectVariant(Some(JNum(1))) == Err(Engine(TypeError))
  {
    var blank := " \t\n";
    assert IsJsSpace(blank[0]) && IsJsSpace(blank[1]) && IsJsSpace(blank[2]);
    assert IsBlank(blank);
  }

  /** A string selects the compatible variant exactly when one of its characters is not white space. */
  lemma CompatibleIffNotBlank(s: string)
    ensures Qwen.SelectVariant(Some(JStr(s))) == Ok(Qwen.Compatible) <==> exists i :: 0 <= i < |s| && !IsJsSpace(s[i])
  {
  }

  // ------------------------------------------------------ wire requests

  /** DashScope's request: the fixed URL, the usual headers, the native body. */
  lemma OfficialRequest(image: Json, key: string, model: Value, baseUrl: Value)
    requires Qwen.SelectVariant(baseUrl) == Ok(Qwen.Official)
    ensures Qwen.Build(image, JStr(key), model, baseUrl).Ok?
    ensures var req := Qwen.Build(image, JStr(key), model, baseUrl).value.request;
      && req.url == Qwen.OFFICIAL_URL
      && req.headers == map["Authorization" := "Bearer " + key, "Content-Type" := "application/json"]
      && req.body == Qwen.OfficialBody(image, model)
  {
  }

  /** The native body: the model, `input.messages[0]` = user with [{image}, {text}], `parameters.max_tokens` 2000. */
  lemma OfficialBodyShape(image: Json, model: Value)
    ensures var body := Qwen.OfficialBody(image, model);
      && Dig(body, [Key("model")]) == Some(if model.None? then JStr(Qwen.DEFAULT_MODEL) else model.value)
      && |Dig(body, [Key("input"), Key("messages")]).value.items| == 1
      && Dig(body, [Key("input"), Key("messages"), At(0), Key("role")]) == Some(JStr("user"))
      && Dig(body, [Key("input"), Key("messages"), At(0), Key("content")])
         == Some(JArr([JObj(map["image" := image]), JObj(map["text" := JStr(PROMPT)])]))
      && Dig(body, [Key("parameters"), Key("max_tokens")]) == Some(JNum(2000))
      && "messages" !in body.fields
  {
    var turn := JObj(map["role" := JStr("user"),
                         "content" := JArr([JObj(map["image" := image]), JObj(map["text" := JStr(PROMPT)])])]);
    var body := Qwen.OfficialBody(image, model);
    assert Dig(body, [Key("input"), Key("messages")]) == Some(JArr([turn]));
  }

  /** The compatible request: `baseUrl` verbatim, the usual headers, the chat-completions body. */
  lemma CompatibleRequest(image: Json, key: string, model: Value, baseUrl: string)
    requires !IsBlank(baseUrl)
    ensures Qwen.Build(image, JStr(key), model, Some(JStr(baseUrl))).Ok?
    ensures var req := Qwen.Build(image, JStr(key), model, Some(JStr(baseUrl))).value.request;
      && req.url == baseUrl
      && req.headers == map["Authorization" := "Bearer " + key, "Content-Type" := "application/json"]
      && req.body == Qwen.CompatibleBody(image, model)
  {
  }

  /** The compatible body: the model, the system persona, then the user's [image_url, text]. */
  lemma CompatibleBodyShape(image: Json, model: Value)
    ensures var body := Qwen.CompatibleBody(image, model);
      && Dig(body, [Key("model")]) == Some(if model.None? then JStr(Qwen.DEFAULT_MODEL) else model.value)
      && Dig(body, [Key("messages")]) == Some(JArr([
           JObj(map["role" := JStr("system"), "content" := JStr(Qwen.PERSONA)]),
           UserTurn(image)]))
      && Dig(body, [Key("max_tokens")]) == Some(JNum(2000))
      && Dig(body, [Key("temperature")]) == Some(TEMPERATURE)
  {
  }

  /** The user turn of both chat-completions bodies: role user, the image URL part, then the prompt part. */
  lemma UserTurnShape(image: Json)
    ensures Dig(UserTurn(image), [Key("role")]) == Some(JStr("user"))
    ensures Dig(UserTurn(image), [Key("content"), At(0), Key("type")]) == Some(JStr("image_url"))
    ensures Dig(UserTurn(image), [Key("content"), At(0), Key("image_url"), Key("url")]) == Some(image)
    ensures Dig(UserTurn(image), [Key("content"), At(1), Key("type")]) == Some(JStr("text"))
    ensures Dig(UserTurn(image), [Key("content"), At(1), Key("text")]) == Some(JStr(PROMPT))
    ensures |Dig(UserTurn(image), [Key("content")]).value.items| == 2
  {
  }

  /** The VolcEngine request: `<baseUrl>/chat/completions`, one user turn [image_url, text]. */
  lemma VolcEngineRequestShape(image: Json, key: string, model: Value, baseUrl: string)
    ensures VolcEngine.Build(image, JStr(key), model, Some(JStr(baseUrl))).Ok?
    ensures var req := VolcEngine.Build(image, JStr(key), model, Some(JStr(baseUrl))).value;
      && req.url == baseUrl + "/chat/completions"
      && req.headers == map["Authorization" := "Bearer " + key, "Content-Type" := "application/json"]
      && Dig(req.body, [Key("model")]) == Some(if model.None? then JStr(VolcEngine.DEFAULT_MODEL) else model.value)
      && Dig(req.body, [Key("messages")]) == Some(JArr([UserTurn(image)]))
      && Dig(req.body, [Key("max_tokens")]) == Some(JNum(2000))
      && Dig(req.body, [Key("temperature")]) == Some(TEMPERATURE)
  {
  }

  /** The base URL default applies to `undefined` only: an empty string keeps the bare path. */
  lemma VolcEngineBaseUrlDefault(image: Json, key: string, model: Value)
    ensures VolcEngine.Build(image, JStr(key), model, None).value.url
         == VolcEngine.DEFAULT_BASE_URL + VolcEngine.PATH
    ensures VolcEngine.Build(image, JStr(key), model, Some(JStr(""))).value.url == VolcEngine.PATH
    ensures VolcEngine.Build(image, JStr(key), model, Some(JNull)).value.url == "null" + VolcEngine.PATH
  {
  }

  // ---------------------------------------------------------- extraction

  /** `{ output: { choices: [ { message: { content } } ] } }`. */
  function OfficialReply(content: Json): Json {
    JObj(map["output" := JObj(map["choices" := JArr([JObj(map["message" := JObj(map["content" := content])])])])])
  }

  /** `{ choices: [ { message: { content } } ] }`. */
  function ChatReply(content: Json): Json {
    JObj(map["choices" := JArr([JObj(map["message" := JObj(map["content" := content])])])])
  }

  /**
   * With list content, DashScope's extraction returns the `text` of the
   * first part whose `text` is truthy, or the no-result text when no part
   * has one; a `null` part before the winner throws.
   */
  lemma OfficialPartsExtraction(items: seq<Json>)
    ensures var r := Qwen.ExtractOfficial(OfficialReply(JArr(items)));
      && ((exists i :: Qwen.FirstTextAt(items, i)) ==>
            exists i :: Qwen.FirstTextAt(items, i) && r == Ok(Member(items[i], "text")))
      && ((forall i :: 0 <= i < |items| ==> items[i] != JNull && !Truthy(Member(items[i], "text"))) ==>
            r == Ok(Some(JStr(Qwen.NO_RESULT))))
  {
    var found := Qwen.FindText(items);
    if found.Ok? && found.value.Some? {
      var i :| Qwen.FirstTextAt(items, i) && found.value == Member(items[i], "text");
    }
  }

  /**
   * For every reply with a truthy `output`: a failed `output.choices[0]`
   * guard is the format error, and otherwise the shape sniff decides on
   * `output.choices[0].message.content`, whatever else the reply holds.
   */
  lemma OfficialReplyContent(data: Json)
    requires data.JObj? && Truthy(Member(data, "output"))
    ensures FirstChoiceContent(Member(data, "output")) == Ok(None) ==>
      Qwen.ExtractOfficial(data) == Err(Raised(Qwen.FORMAT_ERROR))
    ensures forall content :: FirstChoiceContent(Member(data, "output")) == Ok(Some(content)) ==>
      Qwen.ExtractOfficial(data) == Qwen.FromContent(content)
  {
  }

  /** The canonical reply `{output:{choices:[{message:{content}}]}}` reaches the shape sniff with `content`. */
  lemma CanonicalOfficialReply(content: Json)
    ensures Qwen.ExtractOfficial(OfficialReply(content)) == Qwen.FromContent(Some(content))
  {
    var output := Member(OfficialReply(content), "output");
    var choice := JObj(map["message" := JObj(map["content" := content])]);
    assert output == Some(JObj(map["choices" := JArr([choice])]));
    assert Index0(Some(JArr([choice]))) == Ok(Some(choice));
    assert FirstChoiceContent(output) == Ok(Some(Some(content)));
  }

  /** The example `[{text:"A"}, {other:1}]` yields "A", whichever order the parts come in. */
  lemma OfficialFirstTextExample()
    ensures Qwen.ExtractOfficial(OfficialReply(JArr([JObj(map["text" := JStr("A")]), JObj(map["other" := JNum(1)])])))
         == Ok(Some(JStr("A")))
    ensures Qwen.ExtractOfficial(OfficialReply(JArr([JObj(map["other" := JNum(1)]), JObj(map["text" := JStr("A")])])))
         == Ok(Some(JStr("A")))
  {
    var a := JObj(map["text" := JStr("A")]);
    var b := JObj(map["other" := JNum(1)]);
    assert Member(a, "text") == Some(JStr("A"));
    assert Member(b, "text") == None;
    assert Qwen.FindText([a, b]) == Ok(Some(JStr("A")));
    assert Qwen.FindText([b, a]) == Ok(Some(JStr("A"))) by {
      assert [b, a][1..] == [a];
      assert Qwen.FindText([a]) == Ok(Some(JStr("A")));
    }
    CanonicalOfficialReply(JArr([a, b]));
    CanonicalOfficialReply(JArr([b, a]));
  }

  /** String content is returned as it is; an empty part list gives the no-result text; a number is malformed. */
  lemma OfficialShapeExamples(s: string)
    ensures Qwen.ExtractOfficial(OfficialReply(JStr(s))) == Ok(Some(JStr(s)))
    ensures Qwen.ExtractOfficial(OfficialReply(JArr([]))) == Ok(Some(JStr(Qwen.NO_RESULT)))
    ensures Qwen.ExtractOfficial(OfficialReply(JNum(3))) == Err(Raised(Qwen.FORMAT_ERROR))
  {
    CanonicalOfficialReply(JStr(s));
    CanonicalOfficialReply(JArr([]));
    CanonicalOfficialReply(JNum(3));
  }

  /** An ok reply carrying `data`. */
  function OkReply(data: Json): Reply {
    Delivered(true, 200, "", Some(data))
  }

  /** A reply without the expected path is each adapter's own format error. */
  lemma EmptyReplyIsFormatError()
    ensures Qwen.Conclude(Qwen.Official, OkReply(JObj(map[]))) == Err(Raised("千问API返回格式错误"))
    ensures Qwen.Conclude(Qwen.Compatible, OkReply(JObj(map[]))) == Err(Raised("千问API返回格式错误"))
    ensures VolcEngine.Conclude(OkReply(JObj(map[]))) == Err(Raised("火山引擎API返回格式错误"))
  {
  }

  /** DashScope: an `output` without `choices`, with empty `choices`, or with a `null` first choice. */
  lemma OfficialMissingChoiceIsFormatError()
    ensures Qwen.Conclude(Qwen.Official, OkReply(JObj(map["output" := JObj(map[])]))) == Err(Raised("千问API返回格式错误"))
    ensures Qwen.Conclude(Qwen.Official, OkReply(JObj(map["output" := JObj(map["choices" := JArr([])])])))
         == Err(Raised("千问API返回格式错误"))
    ensures Qwen.Conclude(Qwen.Official, OkReply(JObj(map["output" := JObj(map["choices" := JArr([JNull])])])))
         == Err(Raised("千问API返回格式错误"))
  {
    var out := JObj(map["choices" := JArr([JNull])]);
    assert Index0(Member(out, "choices")) == Ok(Some(JNull));
  }

  /** Chat completions: an empty `choices` or a `null` first choice, for compatible Qwen and VolcEngine alike. */
  lemma ChatMissingChoiceIsFormatError()
    ensures Qwen.Conclude(Qwen.Compatible, OkReply(JObj(map["choices" := JArr([])]))) == Err(Raised("千问API返回格式错误"))
    ensures VolcEngine.Conclude(OkReply(JObj(map["choices" := JArr([])]))) == Err(Raised("火山引擎API返回格式错误"))
    ensures Qwen.Conclude(Qwen.Compatible, OkReply(JObj(map["choices" := JArr([JNull])]))) == Err(Raised("千问API返回格式错误"))
    ensures VolcEngine.Conclude(OkReply(JObj(map["choices" := JArr([JNull])]))) == Err(Raised("火山引擎API返回格式错误"))
  {
    var data := JObj(map["choices" := JArr([JNull])]);
    assert Index0(Member(data, "choices")) == Ok(Some(JNull));
  }

  /**
   * For every ok reply whose `choices[0]` is truthy, compatible Qwen and
   * VolcEngine both return `choices[0].message.content` untouched, whatever
   * else the reply holds.
   */
  lemma ChatContentReturnedAsIs(status: int, rawText: string, data: Json, content: Value)
    requires FirstChoiceContent(Some(data)) == Ok(Some(content))
    ensures Qwen.Conclude(Qwen.Compatible, Delivered(true, status, rawText, Some(data))) == Ok(content)
    ensures VolcEngine.Conclude(Delivered(true, status, rawText, Some(data))) == Ok(content)
  {
  }

  /** The canonical reply `{choices:[{message:{content}}]}` yields `content`. */
  lemma CanonicalChatReply(content: Json)
    ensures Qwen.Conclude(Qwen.Compatible, OkReply(ChatReply(content))) == Ok(Some(content))
    ensures VolcEngine.Conclude(OkReply(ChatReply(content))) == Ok(Some(content))
  {
    var choice := JObj(map["message" := JObj(map["content" := content])]);
    assert Member(ChatReply(content), "choices") == Some(JArr([choice]));
    assert FirstChoiceContent(Some(ChatReply(content))) == Ok(Some(Some(content)));
  }

  /** A message without `content` yields `undefined`; a first choice without `message` throws. */
  lemma ChatContentMissing()
    ensures VolcEngine.Conclude(OkReply(JObj(map["choices" := JArr([JObj(map["message" := JObj(map[])])])]))) == Ok(None)
    ensures VolcEngine.Conclude(OkReply(JObj(map["choices" := JArr([JObj(map[])])]))) == Err(Engine(TypeError))
  {
    var bare := JObj(map["message" := JObj(map[])]);
    assert FirstChoiceContent(Some(JObj(map["choices" := JArr([bare])]))) == Ok(Some(None));
    assert FirstChoiceContent(Some(JObj(map["choices" := JArr([JObj(map[])])]))) == Err(Engine(TypeError));
  }
}

=== FILE: error_policy.dfy ===
/**
 * How an adapter turns a non-ok upstream reply into the error it throws.
 * The adapters write this as a `||` chain; this module gives the same
 * policy as a decision table — an ordered list of lookup paths, first
 * truthy value wins, else a fallback text — against which each adapter is
 * proved.
 */
module ErrorPolicy {
  import opened Wrappers
  import opened JsValue
  import opened JsText

  /**
   * `errorData` of both adapters: the reply's text parsed as JSON, or
   * `{ message: rawText }` when it does not parse.
   */
  function ErrorData(rawText: string, parsed: Option<Json>): (d: Value)
    ensures d.Some?
    ensures parsed.None? ==> Member(d.value, "message") == Some(JStr(rawText))
    ensures parsed.Some? ==> d == parsed
  {
    match parsed
    case Some(j) => Some(j)
    case None => Some(JObj(map["message" := JStr(rawText)]))
  }

  /** `new Error(x)`: the message is ToString(x), which itself may throw. */
  function NewError(x: Json): (f: Fault)
    ensures x.JStr? ==> f == Raised(x.s)
    ensures f.Engine? <==> Unprintable(x)
  {
    match StringOf(x)
    case Ok(m) => Raised(m)
    case Err(e) => e
  }

  /** A lookup path `data.p0?.p1?.p2…`: plain access first, optional chaining after it. */
  type Path = seq<string>

  predicate WellFormed(rules: seq<Path>) {
    forall i :: 0 <= i < |rules| ==> |rules[i]| > 0
  }

  /** Optional-chained lookups: `v?.p0?.p1…`, never a throw. */
  function Chain(v: Value, rest: Path): Value
    decreases |rest|
  {
    if rest == [] then v else Chain(OptGet(v, rest[0]), rest[1..])
  }

  /** The value `j.p0?.p1…` names, for a `j` that is neither `null` nor `undefined`. */
  function Lookup(j: Json, path: Path): Value
    requires |path| > 0
  {
    Chain(Member(j, path[0]), path[1..])
  }

  /** Rule `i` is the first whose lookup finds a truthy value. */
  predicate WinsAt(j: Json, rules: seq<Path>, i: int)
    requires WellFormed(rules)
  {
    && 0 <= i < |rules|
    && Truthy(Lookup(j, rules[i]))
    && forall k :: 0 <= k < i ==> !Truthy(Lookup(j, rules[k]))
  }

  /**
   * The decision table: try the rules top to bottom, take the first truthy
   * value; if none is truthy, the fallback text. The first access of a rule
   * throws when `data` is `null` or `undefined`.
   */
  function FirstMatch(data: Value, rules: seq<Path>, fallback: string): (r: Result<Json, Fault>)
    requires WellFormed(rules)
    ensures rules != [] && Nullish(data) ==> r == Err(Engine(TypeError))
    ensures !Nullish(data) ==> r.Ok?
    ensures !Nullish(data) ==>
      || (exists i :: WinsAt(data.value, rules, i) && Some(r.value) == Lookup(data.value, rules[i]))
      || ((forall i :: 0 <= i < |rules| ==> !Truthy(Lookup(data.value, rules[i]))) && r.value == JStr(fallback))
    decreases |rules|
  {
    if rules == [] then Ok(JStr(fallback))
    else if Nullish(data) then Err(Engine(TypeError))
    else
      var found := Lookup(data.value, rules[0]);
      if Truthy(found) then
        assert WinsAt(data.value, rules, 0);
        Ok(found.value)
      else
        var r := FirstMatch(data, rules[1..], fallback);
        ShiftWinner(data.value, rules, r.value, fallback);
        r
  }

  lemma ShiftWinner(j: Json, rules: seq<Path>, v: Json, fallback: string)
    requires WellFormed(rules) && rules != []
    requires !Truthy(Lookup(j, rules[0]))
    requires
      || (exists i :: WinsAt(j, rules[1..], i) && Some(v) == Lookup(j, rules[1..][i]))
      || ((forall i :: 0 <= i < |rules[1..]| ==> !Truthy(Lookup(j, rules[1..][i]))) && v == JStr(fallback))
    ensures
      || (exists i :: WinsAt(j, rules, i) && Some(v) == Lookup(j, rules[i]))
      || ((forall i :: 0 <= i < |rules| ==> !Truthy(Lookup(j, rules[i]))) && v == JStr(fallback))
  {
    if i :| WinsAt(j, rules[1..], i) && Some(v) == Lookup(j, rules[1..][i]) {
      assert WinsAt(j, rules, i + 1) by {
        forall k | 0 <= k < i + 1
          ensures !Truthy(Lookup(j, rules[k]))
        {
          if k > 0 {
            assert rules[k] == rules[1..][k - 1];
          }
        }
      }
    } else {
      forall i | 0 <= i < |rules|
        ensures !Truthy(Lookup(j, rules[i]))
      {
        if i > 0 {
          assert rules[i] == rules[1..][i - 1];
        }
      }
    }
  }

  /** The error thrown once the table has picked its value. */
  function Throw(choice: Result<Json, Fault>): Fault {
    match choice
    case Ok(x) => NewError(x)
    case Err(f) => f
  }
}

=== FILE: handler.dfy ===
/**
 * The serverless entry point `handler(req, res)`: the CORS headers every
 * response carries, the method gate, validation of the three required
 * fields, dispatch on `provider`, and the mapping of whatever the adapter
 * returns or throws to an HTTP response.
 */
module Handler {
  import opened Wrappers
  import opened JsValue
  import opened JsText
  import opened Wire
  import Qwen
  import VolcEngine

  /** The headers set on the response before anything else happens. */
  const CORS_HEADERS: seq<(string, string)> := [
    ("Access-Control-Allow-Credentials", "true"),
    ("Access-Control-Allow-Origin", "*"),
    ("Access-Control-Allow-Methods", "GET,OPTIONS,PATCH,DELETE,POST,PUT"),
    ("Access-Control-Allow-Headers",
     "X-CSRF-Token, X-Requested-With, Accept, Accept-Version, Content-Length, Content-MD5, Content-Type, Date, X-Api-Version, Authorization")]

  const METHOD_NOT_ALLOWED: string := "Method not allowed"
  const MISSING_PARAMETERS: string := "缺少必要参数：provider, imageDataUrl, apiKey"
  const UNSUPPORTED_PREFIX: string := "不支持的AI平台: "
  const INTERNAL_ERROR: string := "服务器内部错误"

  /** An HTTP response; `body` is `None` for a response ended without one. */
  datatype Response = Response(status: int, headers: seq<(string, string)>, body: Option<Json>)

  /** The response, and the upstream request sent on the way to it, if any. */
  datatype Outcome = Outcome(response: Response, sent: Option<WireRequest>)

  /**
   * The message of an error the engine raised. Its wording belongs to the
   * engine; the model writes the error's name, which like the engine's
   * wording is never empty.
   */
  function EngineMessage(kind: EngineError): (m: string)
    ensures m != ""
  {
    match kind
    case TypeError => "TypeError"
    case SyntaxError => "SyntaxError"
  }

  /** `error.message` of a thrown error. */
  function Message(f: Fault): string {
    match f
    case Raised(m) => m
    case Engine(kind) => EngineMessage(kind)
  }

  function FailureBody(error: string): Json {
    JObj(map["success" := JBool(false), "error" := JStr(error)])
  }

  /** `{ success: true, content }`; JSON.stringify drops a member whose value is `undefined`. */
  function SuccessBody(content: Value): (j: Json)
    ensures Member(j, "success") == Some(JBool(true))
    ensures "content" in j.fields <==> content.Some?
    ensures content.Some? ==> j.fields["content"] == content.value
    ensures j.JObj? && j.fields.Keys == if content.Some? then {"success", "content"} else {"success"}
  {
    match content
    case None => JObj(map["success" := JBool(true)])
    case Some(c) => JObj(map["success" := JBool(true), "content" := c])
  }

  function Respond(status: int, body: Option<Json>): Response {
    Response(status, CORS_HEADERS, body)
  }

  /** The `catch` block: status 500, `error.message || '服务器内部错误'`. */
  function Failed(f: Fault, sent: Option<WireRequest>): (o: Outcome)
    ensures o.response.status == 500 && o.sent == sent
    ensures Message(f) != "" ==> o.response.body == Some(FailureBody(Message(f)))
    ensures Message(f) == "" ==> o.response.body == Some(FailureBody(INTERNAL_ERROR))
  {
    var message := Message(f);
    Outcome(Respond(500, Some(FailureBody(if message != "" then message else INTERNAL_ERROR))), sent)
  }

  /** An adapter's result as the response: 200 on a return, 500 on a throw. */
  function Finish(c: Call): (o: Outcome)
    ensures o.sent == c.sent
    ensures c.result.Ok? <==> o.response.status == 200
    ensures c.result.Ok? ==> o.response.body == Some(SuccessBody(c.result.value))
    ensures c.result.Err? ==> o == Failed(c.result.error, c.sent)
  {
    match c.result
    case Ok(content) => Outcome(Respond(200, Some(SuccessBody(content))), c.sent)
    case Err(f) => Failed(f, c.sent)
  }

  /** `provider`, `imageDataUrl` and `apiKey` of the body, as destructuring reads them. */
  function Provider(body: Json): Value { Member(body, "provider") }
  function ImageDataUrl(body: Json): Value { Member(body, "imageDataUrl") }
  function ApiKey(body: Json): Value { Member(body, "apiKey") }

  /** The validation on line 28 passes: all three required fields are truthy. */
  predicate HasRequiredFields(body: Json) {
    Truthy(Provider(body)) && Truthy(ImageDataUrl(body)) && Truthy(ApiKey(body))
  }

  /** The `try` block, for a POST request. */
  function Dispatch(body: Value, reply: Reply): (o: Outcome)
    ensures Nullish(body) ==> o == Failed(Engine(TypeError), None)
    ensures !Nullish(body) && !HasRequiredFields(body.value) ==>
      o == Outcome(Respond(400, Some(FailureBody(MISSING_PARAMETERS))), None)
    ensures o.sent.Some? ==>
      !Nullish(body) && HasRequiredFields(body.value) &&
      Provider(body.value) in {Some(JStr("qwen")), Some(JStr("volcengine"))}
  {
    if Nullish(body) then Failed(Engine(TypeError), None)
    else
      var fields := body.value;
      var provider := Provider(fields);
      var image := ImageDataUrl(fields);
      var apiKey := ApiKey(fields);
      var model := Member(fields, "model");
      var baseUrl := Member(fields, "baseUrl");
      if !Truthy(provider) || !Truthy(image) || !Truthy(apiKey) then
        Outcome(Respond(400, Some(FailureBody(MISSING_PARAMETERS))), None)
      else if provider.value == JStr("qwen") then
        Finish(Qwen.Analyze(image.value, apiKey.value, model, baseUrl, reply))
      else if provider.value == JStr("volcengine") then
        Finish(VolcEngine.Analyze(image.value, apiKey.value, model, baseUrl, reply))
      else
        match StringOf(provider.value)
        case Ok(name) => Outcome(Respond(400, Some(FailureBody(UNSUPPORTED_PREFIX + name))), None)
        case Err(f) => Failed(f, None)
  }

  /** `handler(req, res)` with the upstream reply supplied as an input. */
  function Handle(httpMethod: string, body: Value, reply: Reply): (o: Outcome)
    ensures o.response.headers == CORS_HEADERS
    ensures o.response.status in {200, 400, 405, 500}
    ensures o.response.body.None? <==> httpMethod == "OPTIONS"
    ensures httpMethod == "OPTIONS" ==> o.response.status == 200 && o.sent.None?
    ensures o.response.status == 405 <==> httpMethod != "OPTIONS" && httpMethod != "POST"
    ensures o.response.status == 405 ==>
      o.response.body == Some(JObj(map["error" := JStr(METHOD_NOT_ALLOWED)])) && o.sent.None?
    ensures o.sent.Some? ==> httpMethod == "POST"
    ensures o.response.status in {400, 500} ==>
      o.response.body.Some? && Member(o.response.body.value, "success") == Some(JBool(false))
    ensures o.response.status == 200 && httpMethod != "OPTIONS" ==>
      o.response.body.Some? && Member(o.response.body.value, "success") == Some(JBool(true))
  {
    if httpMethod == "OPTIONS" then Outcome(Respond(200, None), None)
    else if httpMethod != "POST" then Outcome(Respond(405, Some(JObj(map["error" := JStr(METHOD_NOT_ALLOWED)]))), None)
    else Dispatch(body, reply)
  }
}

=== FILE: handler_properties.dfy ===
/**
 * Properties of the handler as a whole: the method gate, validation and
 * dispatch as decision tables, when an upstream request is sent, and how
 * results and errors become responses.
 */
module HandlerProperties {
  import opened Wrappers
  import opened JsValue
  import opened JsText
  import opened Wire
  import opened Handler
  import opened ErrorPolicy
  import Qwen
  import VolcEngine
  import AdapterProperties

  /** The two provider names dispatch recognises, compared with `===`. */
  predicate Supported(provider: Value) {
    provider == Some(JStr("qwen")) || provider == Some(JStr("volcengine"))
  }

  /** `OPTIONS` ends with 200 and no body; any other method but POST gets 405; neither looks further. */
  lemma MethodGate(httpMethod: string, body: Value, body': Value, reply: Reply, reply': Reply)
    requires httpMethod != "POST"
    ensures Handle(httpMethod, body, reply) == Handle(httpMethod, body', reply')
    ensures httpMethod == "OPTIONS" ==>
      Handle(httpMethod, body, reply) == Outcome(Response(200, CORS_HEADERS, None), None)
    ensures httpMethod != "OPTIONS" ==>
      Handle(httpMethod, body, reply)
      == Outcome(Response(405, CORS_HEADERS, Some(JObj(map["error" := JStr("Method not allowed")]))), None)
  {
  }

  /** A POST whose body lacks a truthy provider, imageDataUrl or apiKey gets the fixed 400, whatever else it holds. */
  lemma MissingFieldRejected(fields: map<string, Json>, reply: Reply)
    requires !HasRequiredFields(JObj(fields))
    ensures Handle("POST", Some(JObj(fields)), reply)
         == Outcome(Response(400, CORS_HEADERS, Some(FailureBody("缺少必要参数：provider, imageDataUrl, apiKey"))), None)
  {
  }

  /** Each required field alone can fail validation: absent, empty, `null`, `false` or `0`. */
  lemma EachFieldRequired(fields: map<string, Json>, name: string, falsy: Value, reply: Reply)
    requires name in {"provider", "imageDataUrl", "apiKey"}
    requires falsy in {None, Some(JStr("")), Some(JNull), Some(JBool(false)), Some(JNum(0))}
    ensures var body := if falsy.None? then fields - {name} else fields[name := falsy.value];
      Handle("POST", Some(JObj(body)), reply).response.status == 400
      && Handle("POST", Some(JObj(body)), reply).sent.None?
  {
    var body := if falsy.None? then fields - {name} else fields[name := falsy.value];
    assert !Truthy(Member(JObj(body), name));
    assert !HasRequiredFields(JObj(body));
  }

  /** The validation rejection, as the handler sends it. */
  function Rejected(): Outcome {
    Outcome(Response(400, CORS_HEADERS, Some(FailureBody(MISSING_PARAMETERS))), None)
  }

  /** Validation passes on the three required fields alone: `model` and `baseUrl` never cause the rejection. */
  lemma OptionalFieldsIrrelevantToValidation(fields: map<string, Json>, reply: Reply)
    requires HasRequiredFields(JObj(fields))
    ensures Handle("POST", Some(JObj(fields)), reply) != Rejected()
    ensures var trimmed := JObj(fields - {"model", "baseUrl"});
      HasRequiredFields(trimmed) && Handle("POST", Some(trimmed), reply) != Rejected()
  {
    var trimmed := JObj(fields - {"model", "baseUrl"});
    assert Provider(trimmed) == Provider(JObj(fields));
    assert ImageDataUrl(trimmed) == ImageDataUrl(JObj(fields));
    assert ApiKey(trimmed) == ApiKey(JObj(fields));
    PassesValidation(JObj(fields), reply);
    PassesValidation(trimmed, reply);
  }

  lemma PassesValidation(body: Json, reply: Reply)
    requires HasRequiredFields(body)
    ensures Handle("POST", Some(body), reply) != Rejected()
  {
    var o := Handle("POST", Some(body), reply);
    if o.response.status == 400 {
      var name := StringOf(Provider(body).value).value;
      assert o.response.body == Some(FailureBody(UNSUPPORTED_PREFIX + name));
      assert (UNSUPPORTED_PREFIX + name)[0] != MISSING_PARAMETERS[0];
      assert FailureBody(UNSUPPORTED_PREFIX + name).fields["error"] != FailureBody(MISSING_PARAMETERS).fields["error"];
    }
  }

  /** A body that is `null` or absent makes destructuring throw: 500, nothing sent. */
  lemma NullBodyIsServerError(body: Value, reply: Reply)
    requires Nullish(body)
    ensures Handle("POST", body, reply).response.status == 500
    ensures Handle("POST", body, reply).sent.None?
  {
  }

  /** An unknown provider gets 400 naming it, and no adapter runs. */
  lemma UnsupportedProvider(fields: map<string, Json>, reply: Reply)
    requires HasRequiredFields(JObj(fields)) && !Supported(Provider(JObj(fields)))
    requires StringOf(Provider(JObj(fields)).value).Ok?
    ensures Handle("POST", Some(JObj(fields)), reply)
         == Outcome(Response(400, CORS_HEADERS,
              Some(FailureBody("不支持的AI平台: " + StringOf(Provider(JObj(fields)).value).value))), None)
  {
  }

  /** Provider "foo" gets 400 `不支持的AI平台: foo`. */
  lemma FooProvider(reply: Reply)
    ensures var body := JObj(map["provider" := JStr("foo"), "imageDataUrl" := JStr("data:"), "apiKey" := JStr("k")]);
      Handle("POST", Some(body), reply).response
      == Response(400, CORS_HEADERS, Some(FailureBody("不支持的AI平台: foo")))
  {
    var body := JObj(map["provider" := JStr("foo"), "imageDataUrl" := JStr("data:"), "apiKey" := JStr("k")]);
    assert Provider(body) == Some(JStr("foo"));
    assert HasRequiredFields(body);
    assert StringOf(JStr("foo")) == Ok("foo");
    assert UNSUPPORTED_PREFIX + "foo" == "不支持的AI平台: foo";
  }

  /** Exactly "qwen" reaches the Qwen adapter, with the body's fields as its arguments. */
  lemma DispatchToQwen(fields: map<string, Json>, reply: Reply)
    requires HasRequiredFields(JObj(fields)) && Provider(JObj(fields)) == Some(JStr("qwen"))
    ensures Handle("POST", Some(JObj(fields)), reply)
         == Finish(Qwen.Analyze(fields["imageDataUrl"], fields["apiKey"],
                                Member(JObj(fields), "model"), Member(JObj(fields), "baseUrl"), reply))
  {
  }

  /** Exactly "volcengine" reaches the VolcEngine adapter, with the body's fields as its arguments. */
  lemma DispatchToVolcEngine(fields: map<string, Json>, reply: Reply)
    requires HasRequiredFields(JObj(fields)) && Provider(JObj(fields)) == Some(JStr("volcengine"))
    ensures Handle("POST", Some(JObj(fields)), reply)
         == Finish(VolcEngine.Analyze(fields["imageDataUrl"], fields["apiKey"],
                                      Member(JObj(fields), "model"), Member(JObj(fields), "baseUrl"), reply))
  {
  }

  /**
   * An upstream request goes out exactly when the method is POST, the body
   * passes validation, the provider is supported, and the chosen adapter
   * can build its request.
   */
  lemma SentExactlyWhen(httpMethod: string, body: Value, reply: Reply)
    ensures Handle(httpMethod, body, reply).sent.Some? <==>
      && httpMethod == "POST"
      && !Nullish(body)
      && HasRequiredFields(body.value)
      && Supported(Provider(body.value))
      && var image := ImageDataUrl(body.value).value;
         var key := ApiKey(body.value).value;
         var model := Member(body.value, "model");
         var baseUrl := Member(body.value, "baseUrl");
         if Provider(body.value) == Some(JStr("qwen")) then Qwen.Build(image, key, model, baseUrl).Ok?
         else VolcEngine.Build(image, key, model, baseUrl).Ok?
  {
  }

  /** Without an upstream request the reply cannot matter. */
  lemma ReplyIrrelevantUnlessSent(httpMethod: string, body: Value, reply: Reply, reply': Reply)
    requires Handle(httpMethod, body, reply).sent.None?
    ensures Handle(httpMethod, body, reply') == Handle(httpMethod, body, reply)
  {
    if httpMethod == "POST" && !Nullish(body) && HasRequiredFields(body.value) && Supported(Provider(body.value)) {
      var fields := body.value;
      var image := ImageDataUrl(fields).value;
      var key := ApiKey(fields).value;
      var model := Member(fields, "model");
      var baseUrl := Member(fields, "baseUrl");
      if Provider(fields) == Some(JStr("qwen")) {
        assert Qwen.Build(image, key, model, baseUrl).Err?;
      } else {
        assert VolcEngine.Build(image, key, model, baseUrl).Err?;
      }
    }
  }

  /**
   * Status 400 means a validation failure or an unsupported provider that
   * can be printed, and nothing else.
   */
  lemma BadRequestExactlyWhen(httpMethod: string, body: Value, reply: Reply)
    ensures Handle(httpMethod, body, reply).response.status == 400 <==>
      && httpMethod == "POST"
      && !Nullish(body)
      && (|| !HasRequiredFields(body.value)
          || (!Supported(Provider(body.value)) && StringOf(Provider(body.value).value).Ok?))
  {
  }

  /** A network failure surfaces the transport's message, or the generic text when it is empty. */
  lemma TransportFailureIsServerError(fields: map<string, Json>, message: string)
    requires HasRequiredFields(JObj(fields)) && Supported(Provider(JObj(fields)))
    requires Handle("POST", Some(JObj(fields)), TransportFailure(message)).sent.Some?
    ensures Handle("POST", Some(JObj(fields)), TransportFailure(message)).response
         == Response(500, CORS_HEADERS, Some(FailureBody(if message != "" then message else "服务器内部错误")))
  {
  }

  /** Every non-ok reply, for either provider, ends in a 500 with `success: false`. */
  lemma NonOkReplyIsServerError(fields: map<string, Json>, status: int, rawText: string, parsed: Option<Json>)
    requires HasRequiredFields(JObj(fields)) && Supported(Provider(JObj(fields)))
    ensures var o := Handle("POST", Some(JObj(fields)), Delivered(false, status, rawText, parsed));
      o.response.status == 500 && Member(o.response.body.value, "success") == Some(JBool(false))
  {
  }

  /**
   * A Qwen error body `{"message": []}` picks the truthy empty array, whose
   * text is empty, so the response carries the generic message.
   */
  lemma EmptyErrorMessageFallsBack(image: string, key: string, status: int, rawText: string)
    requires image != "" && key != ""
    ensures var body := JObj(map["provider" := JStr("qwen"), "imageDataUrl" := JStr(image), "apiKey" := JStr(key)]);
      var reply := Delivered(false, status, rawText, Some(JObj(map["message" := JArr([])])));
      Handle("POST", Some(body), reply).response
      == Response(500, CORS_HEADERS, Some(FailureBody("服务器内部错误")))
  {
    var body := JObj(map["provider" := JStr("qwen"), "imageDataUrl" := JStr(image), "apiKey" := JStr(key)]);
    assert Provider(body) == Some(JStr("qwen"));
    assert HasRequiredFields(body);
    assert Member(body, "baseUrl") == None;
    assert Qwen.ErrorFault(status, rawText, Some(JObj(map["message" := JArr([])]))) == Raised("");
  }

  // ------------------------------------------------------------ end to end

  /** The bodies whose reply goes through the chat-completions extraction. */
  predicate ChatProvider(body: Json) {
    || Provider(body) == Some(JStr("volcengine"))
    || (Provider(body) == Some(JStr("qwen")) && Qwen.SelectVariant(Member(body, "baseUrl")) == Ok(Qwen.Compatible))
  }

  /**
   * Compatible Qwen and VolcEngine: an ok reply whose `choices[0]` is truthy
   * becomes 200 `{success: true, content}` with `choices[0].message.content`.
   */
  lemma ChatReplyBecomesSuccess(fields: map<string, Json>, status: int, rawText: string, data: Json, content: Value)
    requires HasRequiredFields(JObj(fields)) && ChatProvider(JObj(fields))
    requires Handle("POST", Some(JObj(fields)), Delivered(true, status, rawText, Some(data))).sent.Some?
    requires FirstChoiceContent(Some(data)) == Ok(Some(content))
    ensures Handle("POST", Some(JObj(fields)), Delivered(true, status, rawText, Some(data))).response
         == Response(200, CORS_HEADERS, Some(SuccessBody(content)))
  {
    AdapterProperties.ChatContentReturnedAsIs(status, rawText, data, content);
  }

  /**
   * DashScope: an ok reply becomes 200 with what the extraction returns, or
   * the 500 of what it throws.
   */
  lemma OfficialReplyBecomesResponse(fields: map<string, Json>, status: int, rawText: string, data: Json)
    requires HasRequiredFields(JObj(fields)) && Provider(JObj(fields)) == Some(JStr("qwen"))
    requires Qwen.SelectVariant(Member(JObj(fields), "baseUrl")) == Ok(Qwen.Official)
    requires Handle("POST", Some(JObj(fields)), Delivered(true, status, rawText, Some(data))).sent.Some?
    ensures var o := Handle("POST", Some(JObj(fields)), Delivered(true, status, rawText, Some(data)));
      var r := Qwen.ExtractOfficial(data);
      && (r.Ok? ==> o.response == Response(200, CORS_HEADERS, Some(SuccessBody(r.value))))
      && (r.Err? ==> o.response == Failed(r.error, o.sent).response)
  {
  }

  /**
   * A non-ok reply becomes 500 carrying the message the provider's error
   * table picks, or the generic text when that message is empty.
   */
  lemma NonOkReplyCarriesPolicyMessage(fields: map<string, Json>, status: int, rawText: string, parsed: Option<Json>)
    requires HasRequiredFields(JObj(fields)) && Supported(Provider(JObj(fields)))
    requires Handle("POST", Some(JObj(fields)), Delivered(false, status, rawText, parsed)).sent.Some?
    ensures var qwen := Provider(JObj(fields)) == Some(JStr("qwen"));
      var rules := if qwen then Qwen.ERROR_RULES else VolcEngine.ERROR_RULES;
      var prefix := if qwen then Qwen.STATUS_ERROR_PREFIX else VolcEngine.STATUS_ERROR_PREFIX;
      var m := Message(Throw(FirstMatch(ErrorData(rawText, parsed), rules, prefix + IntText(status))));
      Handle("POST", Some(JObj(fields)), Delivered(false, status, rawText, parsed)).response
      == Response(500, CORS_HEADERS, Some(FailureBody(if m != "" then m else INTERNAL_ERROR)))
  {
    AdapterProperties.QwenErrorFollowsTable(status, rawText, parsed);
    AdapterProperties.VolcEngineErrorFollowsTable(status, rawText, parsed);
  }
}

=== FILE: js_text.dfy ===
/**
 * The two string operations of JavaScript the handler relies on: ToString,
 * which template literals and `new Error(x)` apply to their operands, and
 * `String.prototype.trim`.
 */
module JsText {
  import opened Wrappers
  import opened JsValue

  // ---------------------------------------------------------------- numbers

  predicate IsDigit(c: char) {
    '0' <= c <= '9'
  }

  function DigitChar(d: int): (c: char)
    requires 0 <= d < 10
    ensures IsDigit(c) && c as int - '0' as int == d
  {
    "0123456789"[d]
  }

  /** The decimal digits of `n`, most significant first, without leading zeros. */
  function NatText(n: nat): (s: string)
    ensures |s| > 0
    ensures forall i :: 0 <= i < |s| ==> IsDigit(s[i])
    ensures |s| > 1 ==> s[0] != '0'
    decreases n
  {
    if n < 10 then [DigitChar(n)] else NatText(n / 10) + [DigitChar(n % 10)]
  }

  /** The number a string of decimal digits denotes: the reading partner of NatText. */
  function DigitsValue(s: string): nat
    requires forall i :: 0 <= i < |s| ==> IsDigit(s[i])
  {
    if s == [] then 0
    else
      assert IsDigit(s[|s| - 1]);
      DigitsValue(s[..|s| - 1]) * 10 + (s[|s| - 1] as int - '0' as int)
  }

  lemma {:induction false} NatTextRoundTrip(n: nat)
    ensures DigitsValue(NatText(n)) == n
    decreases n
  {
    if n >= 10 {
      var s := NatText(n);
      assert s[..|s| - 1] == NatText(n / 10);
      NatTextRoundTrip(n / 10);
    }
  }

  /** How JavaScript prints an integral number (below 10^21 in magnitude). */
  function IntText(n: int): (s: string)
    ensures |s| > 0
    ensures s[0] == '-' <==> n < 0
    ensures n < 0 ==> (forall i :: 1 <= i < |s| ==> IsDigit(s[i])) && DigitsValue(s[1..]) == -n
    ensures n >= 0 ==> (forall i :: 0 <= i < |s| ==> IsDigit(s[i])) && DigitsValue(s) == n
    ensures n >= 0 && |s| > 1 ==> s[0] != '0'
    ensures n < 0 ==> |s| > 1 && (|s| > 2 ==> s[1] != '0')
  {
    NatTextRoundTrip(if n < 0 then -n else n);
    if n < 0 then "-" + NatText(-n) else NatText(n)
  }

  // ------------------------------------------------------------- ToString

  /**
   * A value whose ToString throws: an object with its own member
   * "toString" (which, coming from JSON, is not callable, so no conversion
   * to a primitive succeeds), or an array with such a value inside.
   */
  predicate Unprintable(j: Json)
    decreases j
  {
    match j
    case JObj(m) => "toString" in m
    case JArr(items) => exists i :: 0 <= i < |items| && Unprintable(items[i])
    case _ => false
  }

  /** ToString(j) as a template literal `${j}` or `new Error(j)` computes it. */
  function StringOf(j: Json): (r: Result<string, Fault>)
    ensures r.Err? <==> Unprintable(j)
    ensures r.Err? ==> r.error == Engine(TypeError)
    ensures j.JStr? ==> r == Ok(j.s)
    ensures j.JNum? ==> r == Ok(IntText(j.n))
    decreases j
  {
    match j
    case JNull => Ok("null")
    case JBool(b) => Ok(if b then "true" else "false")
    case JNum(n) => Ok(IntText(n))
    case JFrac(t) => Ok(t)
    case JStr(s) => Ok(s)
    case JArr(items) => JoinText(items)
    case JObj(m) => if "toString" in m then Err(Engine(TypeError)) else Ok("[object Object]")
  }

  /** Array.prototype.join with ",": `null` elements print as nothing. */
  function JoinText(items: seq<Json>): (r: Result<string, Fault>)
    ensures r.Err? <==> exists i :: 0 <= i < |items| && Unprintable(items[i])
    ensures r.Err? ==> r.error == Engine(TypeError)
    ensures items == [] ==> r == Ok("")
    decreases items
  {
    if items == [] then Ok("")
    else
      var head :- if items[0].JNull? then Ok("") else StringOf(items[0]);
      if |items| == 1 then Ok(head)
      else
        var rest :- JoinText(items[1..]);
        Ok(head + "," + rest)
  }

  // ----------------------------------------------------------------- trim

  /** WhiteSpace and LineTerminator of ECMAScript, the characters `trim` removes. */
  predicate IsJsSpace(c: char) {
    || c == '\t' || c == '\n' || c == '\U{000B}' || c == '\U{000C}' || c == '\r'
    || c == ' ' || c == '\U{00A0}' || c == '\U{1680}'
    || ('\U{2000}' <= c <= '\U{200A}')
    || c == '\U{2028}' || c == '\U{2029}' || c == '\U{202F}' || c == '\U{205F}'
    || c == '\U{3000}' || c == '\U{FEFF}'
  }

  predicate IsBlank(s: string) {
    forall i :: 0 <= i < |s| ==> IsJsSpace(s[i])
  }

  function TrimStart(s: string): (r: string)
    ensures |r| <= |s| && r == s[|s| - |r|..]
    ensures IsBlank(s[..|s| - |r|])
    ensures r != "" ==> !IsJsSpace(r[0])
  {
    if s != "" && IsJsSpace(s[0]) then TrimStart(s[1..]) else s
  }

  function TrimEnd(s: string): (r: string)
    ensures |r| <= |s| && r == s[..|r|]
    ensures IsBlank(s[|r|..])
    ensures r != "" ==> !IsJsSpace(r[|r| - 1])
  {
    if s != "" && IsJsSpace(s[|s| - 1]) then TrimEnd(s[..|s| - 1]) else s
  }

  /** `s.trim()`: the longest infix of `s` that neither starts nor ends with white space. */
  function Trim(s: string): (r: string)
    ensures exists a, b :: 0 <= a <= b <= |s| && r == s[a..b] && IsBlank(s[..a]) && IsBlank(s[b..])
    ensures r != "" ==> !IsJsSpace(r[0]) && !IsJsSpace(r[|r| - 1])
    ensures r == "" <==> IsBlank(s)
  {
    var t := TrimStart(s);
    var r := TrimEnd(t);
    assert r == s[|s| - |t|..|s| - |t| + |r|];
    assert IsBlank(s[|s| - |t| + |r|..]) by {
      assert s[|s| - |t| + |r|..] == t[|r|..];
    }
    r
  }
}

=== FILE: js_value.dfy ===
/**
 * JSON values as the handler meets them, with the three pieces of
 * JavaScript semantics its decisions depend on: truthiness, property
 * access (which throws on `null` and `undefined`), and indexing with `[0]`.
 */
module JsValue {
  import opened Wrappers

  /** A value that JSON.parse can produce. */
  datatype Json =
    | JNull
    | JBool(b: bool)
    | JNum(n: int)            // a number with an integral value
    | JFrac(text: string)     // a number with a fractional part, carried by the text JavaScript prints for it
    | JStr(s: string)
    | JArr(items: seq<Json>)
    | JObj(fields: map<string, Json>)

  /** A JavaScript value in a position that may also hold `undefined` (written `None`). */
  type Value = Option<Json>

  /** The errors the JavaScript engine raises by itself while the handler runs. */
  datatype EngineError = TypeError | SyntaxError

  /** What a `throw` carries to the handler's `catch`. */
  datatype Fault =
    | Raised(message: string)        // an Error whose message the program chose
    | Engine(kind: EngineError)      // an error the engine raised, with the engine's own wording

  /** `null` or `undefined`: the two values whose property access throws. */
  predicate Nullish(v: Value) {
    v.None? || v.value.JNull?
  }

  /** JavaScript's ToBoolean on the values a JSON document can hold. */
  predicate Truthy(v: Value)
    ensures !Truthy(v) <==>
      v.None? || v == Some(JNull) || v == Some(JBool(false)) || v == Some(JNum(0)) || v == Some(JStr(""))
  {
    match v
    case None => false
    case Some(j) =>
      match j
      case JNull => false
      case JBool(b) => b
      case JNum(n) => n != 0
      case JFrac(_) => true
      case JStr(s) => s != ""
      case JArr(_) => true
      case JObj(_) => true
  }

  /**
   * `j.name` on a value that is neither `null` nor `undefined`. Only the
   * own members of a JSON object are found; that is JavaScript's answer for
   * every name the handler reads, none of which is an array index, `length`,
   * or a member of a prototype.
   */
  function Member(j: Json, name: string): (r: Value)
    ensures r.Some? <==> j.JObj? && name in j.fields
    ensures r.Some? ==> r.value == j.fields[name]
  {
    if j.JObj? && name in j.fields then Some(j.fields[name]) else None
  }

  /** `v.name`: a TypeError when `v` is `null` or `undefined`. */
  function Get(v: Value, name: string): (r: Result<Value, Fault>)
    ensures r.Err? <==> Nullish(v)
    ensures r.Err? ==> r.error == Engine(TypeError)
    ensures r.Ok? ==> r.value == Member(v.value, name)
  {
    if Nullish(v) then Err(Engine(TypeError)) else Ok(Member(v.value, name))
  }

  /** `v?.name`: `undefined` when `v` is `null` or `undefined`, never a throw. */
  function OptGet(v: Value, name: string): (r: Value)
    ensures Nullish(v) ==> r.None?
    ensures !Nullish(v) ==> r == Member(v.value, name)
  {
    if Nullish(v) then None else Member(v.value, name)
  }

  /**
   * `v[0]`: the first element of an array, the member "0" of an object, the
   * first code unit of a string, and `undefined` on numbers and booleans.
   * Of a string's first unit only its truthiness is ever used, so the model
   * keeps the first character.
   */
  function Index0(v: Value): (r: Result<Value, Fault>)
    ensures r.Err? <==> Nullish(v)
    ensures r.Ok? && v.value.JArr? ==> (r.value.Some? <==> |v.value.items| > 0)
    ensures r.Ok? && v.value.JArr? && |v.value.items| > 0 ==> r.value == Some(v.value.items[0])
    ensures r.Ok? && v.value.JStr? ==> (Truthy(r.value) <==> Truthy(v))
  {
    if Nullish(v) then Err(Engine(TypeError))
    else
      match v.value
      case JArr(items) => Ok(if |items| > 0 then Some(items[0]) else None)
      case JObj(m) => Ok(if "0" in m then Some(m["0"]) else None)
      case JStr(s) => Ok(if |s| > 0 then Some(JStr(s[..1])) else None)
      case _ => Ok(None)
  }
}

=== FILE: qwen.dfy ===
/**
 * The Qwen adapter (`analyzeWithQwen`): two wire variants — DashScope's
 * own multimodal-generation API, and an OpenAI-compatible endpoint the
 * caller names with `baseUrl` — one error policy, and one extraction rule
 * per variant.
 */
module Qwen {
  import opened Wrappers
  import opened JsValue
  import opened JsText
  import opened Wire
  import opened ErrorPolicy

  const DEFAULT_MODEL: string := "qwen-vl-max"
  const OFFICIAL_URL: string := "https://dashscope.aliyuncs.com/api/v1/services/aigc/multimodal-generation/generation"
  const PERSONA: string := "你是一个专业的视觉分析专家。"
  const STATUS_ERROR_PREFIX: string := "千问API错误: "
  const FORMAT_ERROR: string := "千问API返回格式错误"
  const NO_RESULT: string := "无法获取分析结果"

  datatype Variant = Official | Compatible

  /** `baseUrl && baseUrl.trim() !== ''`; a truthy non-string has no `trim` to call. */
  function SelectVariant(baseUrl: Value): (r: Result<Variant, Fault>)
    ensures r == Ok(Compatible) <==> baseUrl.Some? && baseUrl.value.JStr? && !IsBlank(baseUrl.value.s)
    ensures r.Err? <==> Truthy(baseUrl) && !baseUrl.value.JStr?
    ensures r.Err? ==> r.error == Engine(TypeError)
  {
    if !Truthy(baseUrl) then Ok(Official)
    else
      match baseUrl.value
      case JStr(s) => if Trim(s) != "" then Ok(Compatible) else Ok(Official)
      case _ => Err(Engine(TypeError))
  }

  /** DashScope's native body: one user message whose content is the image, then the prompt. */
  function OfficialBody(image: Json, model: Value): (j: Json)
    ensures j.JObj? && j.fields.Keys == {"model", "input", "parameters"}
    ensures Member(j, "model") == Some(Defaulted(model, DEFAULT_MODEL))
    ensures Dig(j, [Key("input"), Key("messages"), At(0), Key("content")])
         == Some(JArr([JObj(map["image" := image]), JObj(map["text" := JStr(PROMPT)])]))
    ensures Dig(j, [Key("parameters"), Key("max_tokens")]) == Some(JNum(MAX_TOKENS))
  {
    JObj(map[
      "model" := Defaulted(model, DEFAULT_MODEL),
      "input" := JObj(map["messages" := JArr([
        JObj(map["role" := JStr("user"),
                 "content" := JArr([JObj(map["image" := image]), JObj(map["text" := JStr(PROMPT)])])])])]),
      "parameters" := JObj(map["max_tokens" := JNum(MAX_TOKENS)])])
  }

  /** The chat-completions body: the system persona, then the user turn. */
  function CompatibleBody(image: Json, model: Value): (j: Json)
    ensures j.JObj? && j.fields.Keys == {"model", "messages", "max_tokens", "temperature"}
    ensures Member(j, "model") == Some(Defaulted(model, DEFAULT_MODEL))
    ensures Dig(j, [Key("messages"), At(0), Key("role")]) == Some(JStr("system"))
    ensures Dig(j, [Key("messages"), At(1)]) == Some(UserTurn(image))
  {
    ChatBody(Defaulted(model, DEFAULT_MODEL), [JObj(map["role" := JStr("system"), "content" := JStr(PERSONA)]), UserTurn(image)])
  }

  datatype Plan = Plan(variant: Variant, request: WireRequest)

  /** Everything `analyzeWithQwen` does before it calls fetch. */
  function Build(image: Json, apiKey: Json, model: Value, baseUrl: Value): (r: Result<Plan, Fault>)
    ensures r.Err? <==> SelectVariant(baseUrl).Err? || Unprintable(apiKey)
    ensures r.Err? ==> r.error == Engine(TypeError)
    ensures r.Ok? ==> Ok(r.value.variant) == SelectVariant(baseUrl)
    ensures r.Ok? ==> Ok(r.value.request.headers) == AuthHeaders(apiKey)
    ensures r.Ok? && r.value.variant == Compatible ==> r.value.request.url == baseUrl.value.s
    ensures r.Ok? && r.value.variant == Official ==> r.value.request.url == OFFICIAL_URL
    ensures r.Ok? && r.value.variant == Compatible ==> r.value.request.body == CompatibleBody(image, model)
    ensures r.Ok? && r.value.variant == Official ==> r.value.request.body == OfficialBody(image, model)
  {
    var variant :- SelectVariant(baseUrl);
    var headers :- AuthHeaders(apiKey);
    match variant
    case Compatible => Ok(Plan(variant, WireRequest(baseUrl.value.s, headers, CompatibleBody(image, model))))
    case Official => Ok(Plan(variant, WireRequest(OFFICIAL_URL, headers, OfficialBody(image, model))))
  }

  /** `errorData.message || errorData.error?.message || `千问API错误: ${status}``, thrown as an Error. */
  function ErrorFault(status: int, rawText: string, parsed: Option<Json>): (f: Fault)
    ensures parsed.None? && rawText != "" ==> f == Raised(rawText)
    ensures parsed.None? && rawText == "" ==> f == Raised(STATUS_ERROR_PREFIX + IntText(status))
    ensures parsed == Some(JNull) ==> f == Engine(TypeError)
  {
    var data := ErrorData(rawText, parsed);
    if Nullish(data) then Engine(TypeError)
    else
      var top := Member(data.value, "message");
      if Truthy(top) then NewError(top.value)
      else
        var nested := OptGet(Member(data.value, "error"), "message");
        if Truthy(nested) then NewError(nested.value)
        else Raised(STATUS_ERROR_PREFIX + IntText(status))
  }

  /** The order in which the Qwen error policy consults the error body. */
  const ERROR_RULES: seq<Path> := [["message"], ["error", "message"]]

  /**
   * `items.find(item => item.text)?.text`: the `text` of the first element
   * whose `text` is truthy; reading `.text` of a `null` element throws.
   */
  function FindText(items: seq<Json>): (r: Result<Value, Fault>)
    ensures r.Ok? && r.value.Some? ==>
      exists i :: FirstTextAt(items, i) && r.value == Member(items[i], "text")
    ensures r == Ok(None) <==>
      forall i :: 0 <= i < |items| ==> items[i] != JNull && !Truthy(Member(items[i], "text"))
    ensures r.Err? <==>
      exists i :: 0 <= i < |items| && items[i] == JNull && forall k :: 0 <= k < i ==> !Truthy(Member(items[k], "text"))
    ensures r.Err? ==> r.error == Engine(TypeError)
  {
    if items == [] then Ok(None)
    else if items[0] == JNull then Err(Engine(TypeError))
    else if Truthy(Member(items[0], "text")) then
      assert FirstTextAt(items, 0);
      Ok(Member(items[0], "text"))
    else
      var r := FindText(items[1..]);
      if r.Ok? && r.value.Some? then
        var i :| FirstTextAt(items[1..], i) && r.value == Member(items[1..][i], "text");
        assert FirstTextAt(items, i + 1);
        r
      else if r.Err? then
        var i :| 0 <= i < |items[1..]| && items[1..][i] == JNull && forall k :: 0 <= k < i ==> !Truthy(Member(items[1..][k], "text"));
        assert items[i + 1] == JNull && forall k :: 0 <= k < i + 1 ==> !Truthy(Member(items[k], "text"));
        r
      else
        r
  }

  /** Element `i` is the first element carrying a truthy `text`, and no `null` comes before it. */
  predicate FirstTextAt(items: seq<Json>, i: int) {
    && 0 <= i < |items|
    && items[i] != JNull
    && Truthy(Member(items[i], "text"))
    && forall k :: 0 <= k < i ==> items[k] != JNull && !Truthy(Member(items[k], "text"))
  }

  /** The shape sniff on `content`: `Array.isArray`, then `typeof … === 'string'`. */
  datatype ContentShape = Parts(items: seq<Json>) | PlainText(s: string) | OtherShape

  function Shape(content: Value): ContentShape {
    match content
    case Some(JArr(items)) => Parts(items)
    case Some(JStr(s)) => PlainText(s)
    case _ => OtherShape
  }

  /**
   * What DashScope's extraction makes of `output.choices[0].message.content`:
   * the `find` over a list of parts, falling back to the no-result text; a
   * string as it is; anything else is malformed.
   */
  function FromContent(content: Value): (r: Result<Value, Fault>)
    ensures content.Some? && content.value.JStr? ==> r == Ok(content)
    ensures Shape(content).OtherShape? ==> r == Err(Raised(FORMAT_ERROR))
    ensures r.Ok? ==> Truthy(r.value) || r.value == Some(JStr(""))
    ensures Shape(content).Parts? && r.Ok? ==> Truthy(r.value)
  {
    match Shape(content)
    case Parts(items) =>
      var text :- FindText(items);
      Ok(if Truthy(text) then text else Some(JStr(NO_RESULT)))
    case PlainText(s) => Ok(Some(JStr(s)))
    case OtherShape => Err(Raised(FORMAT_ERROR))
  }

  /** DashScope's reply: `output.choices[0].message.content`, a list of parts or a string. */
  function ExtractOfficial(data: Json): (r: Result<Value, Fault>)
    ensures r.Ok? ==> Truthy(r.value) || r.value == Some(JStr(""))
    ensures data == JNull ==> r == Err(Engine(TypeError))
    ensures data != JNull && !Truthy(Member(data, "output")) ==> r == Err(Raised(FORMAT_ERROR))
    ensures data.JObj? && Truthy(Member(data, "output")) ==>
      var found := FirstChoiceContent(Member(data, "output"));
      && (found == Ok(None) ==> r == Err(Raised(FORMAT_ERROR)))
      && (found.Ok? && found.value.Some? ==> r == FromContent(found.value.value))
      && (found.Err? ==> r == Err(found.error))
  {
    var output :- Get(Some(data), "output");
    if !Truthy(output) then Err(Raised(FORMAT_ERROR))
    else
      var found :- FirstChoiceContent(output);
      match found
      case None => Err(Raised(FORMAT_ERROR))
      case Some(content) => FromContent(content)
  }

  /** Everything `analyzeWithQwen` does after fetch settles. */
  function Conclude(variant: Variant, reply: Reply): (r: Result<Value, Fault>)
    ensures reply.TransportFailure? ==> r == Err(Raised(reply.message))
    ensures reply.Delivered? && !reply.ok ==> r == Err(ErrorFault(reply.status, reply.rawText, reply.parsed))
    ensures reply.Delivered? && reply.ok && reply.parsed.None? ==> r == Err(Engine(SyntaxError))
    ensures reply.Delivered? && reply.ok && reply.parsed.Some? && variant == Official ==>
      r == ExtractOfficial(reply.parsed.value)
    ensures reply.Delivered? && reply.ok && reply.parsed.Some? && variant == Compatible ==>
      r == ChatContent(reply.parsed.value, FORMAT_ERROR)
  {
    match reply
    case TransportFailure(message) => Err(Raised(message))
    case Delivered(ok, status, rawText, parsed) =>
      if !ok then Err(ErrorFault(status, rawText, parsed))
      else
        match parsed
        case None => Err(Engine(SyntaxError))
        case Some(data) =>
          match variant
          case Official => ExtractOfficial(data)
          case Compatible => ChatContent(data, FORMAT_ERROR)
  }

  /** `analyzeWithQwen(imageDataUrl, apiKey, model, baseUrl)` against a given upstream reply. */
  function Analyze(image: Json, apiKey: Json, model: Value, baseUrl: Value, reply: Reply): (c: Call)
    ensures c.sent.Some? <==> Build(image, apiKey, model, baseUrl).Ok?
    ensures c.sent.Some? ==> c.sent.value == Build(image, apiKey, model, baseUrl).value.request
    ensures c.sent.Some? ==> c.result == Conclude(Build(image, apiKey, model, baseUrl).value.variant, reply)
    ensures c.sent.None? ==> c.result == Err(Engine(TypeError))
    ensures reply.Delivered? && !reply.ok ==> c.result.Err?
  {
    match Build(image, apiKey, model, baseUrl)
    case Err(f) => Call(None, Err(f))
    case Ok(plan) => Call(Some(plan.request), Conclude(plan.variant, reply))
  }
}

=== FILE: volcengine.dfy ===
/**
 * The VolcEngine adapter (`analyzeWithVolcEngine`): a chat-completions
 * request under `<baseUrl>/chat/completions`, an error policy that reads
 * only `error.message`, and the `choices[0].message.content` extraction.
 */
module VolcEngine {
  import opened Wrappers
  import opened JsValue
  import opened JsText
  import opened Wire
  import opened ErrorPolicy

  const DEFAULT_MODEL: string := "doubao-vision-pro-32k"
  const DEFAULT_BASE_URL: string := "https://ark.cn-beijing.volces.com/api/v3"
  const PATH: string := "/chat/completions"
  const STATUS_ERROR_PREFIX: string := "火山引擎API错误: "
  const FORMAT_ERROR: string := "火山引擎API返回格式错误"

  /** The chat-completions body: a single user turn, the image before the prompt. */
  function RequestBody(image: Json, model: Value): (j: Json)
    ensures j.JObj? && j.fields.Keys == {"model", "messages", "max_tokens", "temperature"}
    ensures Member(j, "model") == Some(Defaulted(model, DEFAULT_MODEL))
    ensures Member(j, "messages") == Some(JArr([UserTurn(image)]))
  {
    ChatBody(Defaulted(model, DEFAULT_MODEL), [UserTurn(image)])
  }

  /** Everything `analyzeWithVolcEngine` does before fetch: `${baseUrl}/chat/completions` and the headers. */
  function Build(image: Json, apiKey: Json, model: Value, baseUrl: Value): (r: Result<WireRequest, Fault>)
    ensures r.Err? <==> Unprintable(Defaulted(baseUrl, DEFAULT_BASE_URL)) || Unprintable(apiKey)
    ensures r.Err? ==> r.error == Engine(TypeError)
    ensures r.Ok? ==> |r.value.url| >= |PATH| && r.value.url[|r.value.url| - |PATH|..] == PATH
    ensures r.Ok? && baseUrl.None? ==> r.value.url == DEFAULT_BASE_URL + PATH
    ensures r.Ok? && baseUrl.Some? && baseUrl.value.JStr? ==> r.value.url == baseUrl.value.s + PATH
    ensures r.Ok? && baseUrl == Some(JNull) ==> r.value.url == "null" + PATH
    ensures r.Ok? ==> Ok(r.value.headers) == AuthHeaders(apiKey)
    ensures r.Ok? ==> r.value.body == RequestBody(image, model)
  {
    var base :- StringOf(Defaulted(baseUrl, DEFAULT_BASE_URL));
    var headers :- AuthHeaders(apiKey);
    Ok(WireRequest(base + PATH, headers, RequestBody(image, model)))
  }

  /** `errorData.error?.message || `火山引擎API错误: ${status}``, thrown as an Error. */
  function ErrorFault(status: int, rawText: string, parsed: Option<Json>): (f: Fault)
    ensures parsed.None? ==> f == Raised(STATUS_ERROR_PREFIX + IntText(status))
    ensures parsed == Some(JNull) ==> f == Engine(TypeError)
  {
    var data := ErrorData(rawText, parsed);
    if Nullish(data) then Engine(TypeError)
    else
      var nested := OptGet(Member(data.value, "error"), "message");
      if Truthy(nested) then NewError(nested.value)
      else Raised(STATUS_ERROR_PREFIX + IntText(status))
  }

  /** The order in which the VolcEngine error policy consults the error body. */
  const ERROR_RULES: seq<Path> := [["error", "message"]]

  /** Everything `analyzeWithVolcEngine` does after fetch settles. */
  function Conclude(reply: Reply): (r: Result<Value, Fault>)
    ensures reply.TransportFailure? ==> r == Err(Raised(reply.message))
    ensures reply.Delivered? && !reply.ok ==> r == Err(ErrorFault(reply.status, reply.rawText, reply.parsed))
    ensures reply.Delivered? && reply.ok && reply.parsed.None? ==> r == Err(Engine(SyntaxError))
    ensures reply.Delivered? && reply.ok && reply.parsed.Some? ==> r == ChatContent(reply.parsed.value, FORMAT_ERROR)
  {
    match reply
    case TransportFailure(message) => Err(Raised(message))
    case Delivered(ok, status, rawText, parsed) =>
      if !ok then Err(ErrorFault(status, rawText, parsed))
      else
        match parsed
        case None => Err(Engine(SyntaxError))
        case Some(data) => ChatContent(data, FORMAT_ERROR)
  }

  /** `analyzeWithVolcEngine(imageDataUrl, apiKey, model, baseUrl)` against a given upstream reply. */
  function Analyze(image: Json, apiKey: Json, model: Value, baseUrl: Value, reply: Reply): (c: Call)
    ensures c.sent.Some? <==> Build(image, apiKey, model, baseUrl).Ok?
    ensures c.sent.Some? ==> c.sent.value == Build(image, apiKey, model, baseUrl).value
    ensures c.sent.Some? ==> c.result == Conclude(reply)
    ensures c.sent.None? ==> c.result == Err(Engine(TypeError))
    ensures reply.Delivered? && !reply.ok ==> c.result.Err?
  {
    match Build(image, apiKey, model, baseUrl)
    case Err(f) => Call(None, Err(f))
    case Ok(request) => Call(Some(request), Conclude(reply))
  }
}

=== FILE: wire.dfy ===
/**
 * What crosses the network: the request an adapter sends upstream and the
 * reply it gets back, plus the parts of the request body both providers
 * share. The HTTP call itself is not modelled; the reply is an input.
 */
module Wire {
  import opened Wrappers
  import opened JsValue
  import opened JsText

  /** An upstream POST: its URL, its headers, and its JSON body before serialisation. */
  datatype WireRequest = WireRequest(url: string, headers: map<string, string>, body: Json)

  /**
   * The upstream reply as the adapters read it. `parsed` is what JSON.parse
   * makes of `rawText` (`None` when it throws); a reply that never arrives
   * carries the transport's error message.
   */
  datatype Reply =
    | Delivered(ok: bool, status: int, rawText: string, parsed: Option<Json>)
    | TransportFailure(message: string)

  /**
   * The analysis prompt both providers receive. Its wording is fixed text of
   * the program; nothing here depends on it, so the model keeps a stand-in.
   */
  const PROMPT: string := "<analysis prompt: Chinese and English image/motion/camera prompt template>"

  const MAX_TOKENS: int := 2000

  /** The sampling temperature 0.7, a non-integral number. */
  const TEMPERATURE: Json := JFrac("0.7")

  /** A parameter default, `p = fallback`: it replaces `undefined` and nothing else. */
  function Defaulted(v: Value, fallback: string): (j: Json)
    ensures v.None? ==> j == JStr(fallback)
    ensures v.Some? ==> j == v.value
  {
    match v
    case None => JStr(fallback)
    case Some(x) => x
  }

  /** `{ Authorization: `Bearer ${apiKey}`, 'Content-Type': 'application/json' }`. */
  function AuthHeaders(apiKey: Json): (r: Result<map<string, string>, Fault>)
    ensures r.Err? <==> Unprintable(apiKey)
    ensures r.Ok? ==> r.value.Keys == {"Authorization", "Content-Type"}
    ensures r.Ok? ==> r.value["Content-Type"] == "application/json"
    ensures r.Ok? && apiKey.JStr? ==> r.value["Authorization"] == "Bearer " + apiKey.s
    ensures r.Ok? ==> StringOf(apiKey).Ok? && r.value["Authorization"] == "Bearer " + StringOf(apiKey).value
  {
    var key :- StringOf(apiKey);
    Ok(map["Authorization" := "Bearer " + key, "Content-Type" := "application/json"])
  }

  /** `{ type: 'image_url', image_url: { url: imageDataUrl } }`. */
  function ImageUrlPart(image: Json): Json {
    JObj(map["type" := JStr("image_url"), "image_url" := JObj(map["url" := image])])
  }

  /** `{ type: 'text', text: <prompt> }`. */
  function PromptPart(): Json {
    JObj(map["type" := JStr("text"), "text" := JStr(PROMPT)])
  }

  /** The user turn of the chat-completions convention: the image, then the prompt. */
  function UserTurn(image: Json): Json {
    JObj(map["role" := JStr("user"), "content" := JArr([ImageUrlPart(image), PromptPart()])])
  }

  /** A chat-completions body: `{ model, messages, max_tokens: 2000, temperature: 0.7 }`. */
  function ChatBody(model: Json, messages: seq<Json>): Json {
    JObj(map[
      "model" := model,
      "messages" := JArr(messages),
      "max_tokens" := JNum(MAX_TOKENS),
      "temperature" := TEMPERATURE])
  }

  /** What an adapter did: the request it sent, if any, and what it returned or threw. */
  datatype Call = Call(sent: Option<WireRequest>, result: Result<Value, Fault>)

  /** One step into a JSON document: an object member or an array position. */
  datatype Step = Key(name: string) | At(index: nat)

  /** The value at the end of `path` inside `j`, if every step exists. */
  function Dig(j: Json, path: seq<Step>): Option<Json>
    decreases |path|
  {
    if path == [] then Some(j)
    else
      match path[0]
      case Key(k) => if j.JObj? && k in j.fields then Dig(j.fields[k], path[1..]) else None
      case At(i) => if j.JArr? && i < |j.items| then Dig(j.items[i], path[1..]) else None
  }

  /**
   * `v.choices && v.choices[0]` and, when that holds, `v.choices[0].message.content`:
   * `Ok(None)` when the guard fails, `Ok(Some(content))` when it holds.
   * `v` is the whole reply for the chat-completions shape and `data.output`
   * for DashScope's own shape.
   */
  function FirstChoiceContent(v: Value): (r: Result<Option<Value>, Fault>)
    ensures Nullish(v) ==> r == Err(Engine(TypeError))
    ensures r == Ok(None) <==>
      !Nullish(v) && var cs := Member(v.value, "choices"); !Truthy(cs) || Index0(cs) == Ok(None) || !Truthy(Index0(cs).value)
    ensures r.Ok? && r.value.Some? ==>
      var c0 := Index0(Member(v.value, "choices")).value;
      Truthy(c0) && !Nullish(Member(c0.value, "message")) && r.value.value == Member(Member(c0.value, "message").value, "content")
  {
    var choices :- Get(v, "choices");
    if !Truthy(choices) then Ok(None)
    else
      var first := Index0(choices).value;
      if !Truthy(first) then Ok(None)
      else
        var message := Member(first.value, "message");
        var content :- Get(message, "content");
        Ok(Some(content))
  }

  /**
   * The chat-completions extraction both adapters share:
   * `choices[0].message.content`, whatever it holds, when `choices[0]` is
   * truthy; otherwise the adapter's own format error.
   */
  function ChatContent(data: Json, formatError: string): (r: Result<Value, Fault>)
    ensures data == JNull ==> r == Err(Engine(TypeError))
    ensures r.Err? && r.error.Raised? ==> r.error.message == formatError
    ensures FirstChoiceContent(Some(data)) == Ok(None) ==> r == Err(Raised(formatError))
    ensures FirstChoiceContent(Some(data)).Ok? && FirstChoiceContent(Some(data)).value.Some? ==>
      r == Ok(FirstChoiceContent(Some(data)).value.value)
    ensures FirstChoiceContent(Some(data)).Err? ==> r == Err(FirstChoiceContent(Some(data)).error)
  {
    var found :- FirstChoiceContent(Some(data));
    match found
    case None => Err(Raised(formatError))
    case Some(content) => Ok(content)
  }
}

=== FILE: wrappers.dfy ===
/** Option and Result, the failure-compatible wrappers the rest of the model uses. */
module Wrappers {

  /** `None` stands for a missing value; on JavaScript values it is `undefined`. */
  datatype Option<+T> = None | Some(value: T) {
    predicate IsFailure() {
      None?
    }

    function PropagateFailure<U>(): Option<U>
      requires None?
    {
      None
    }

    function Extract(): T
      requires Some?
    {
      value
    }
  }

  /** The outcome of a step that either yields a value or throws. */
  datatype Result<+T, +E> = Ok(value: T) | Err(error: E) {
    predicate IsFailure() {
      Err?
    }

    function PropagateFailure<U>(): Result<U, E>
      requires Err?
    {
      Err(error)
    }

    function Extract(): T
      requires Ok?
    {
      value
    }
  }
}
